=== FILE: README.md ===
# AspirinKit helpers in Dafny

AspirinKit is a Swift toolkit of small, independent helpers for macOS and iOS
apps. This project models the parts of it whose behaviour is sequential,
deterministic and exactly statable, and proves what they compute:

- **Keyboard** (`keyboard.dfy`, module `Keyboard`). This covers:
  - key-combo identity: the precomputed hash, `==` on hashes, and the Carbon modifier mask;
  - the app binding map;
  - the three global-binding maps and the hot-key ID counter, with the invariant they keep;
  - the registry of keyboards by four-char signature, and dispatch of key and hot-key events.
- **String** (`strings.dfy`, module `Strings`). This covers:
  - `fourCharCode`, `trim` and `isBlank`;
  - prefix and suffix removal;
  - `substring`, `position` and the `lastPosition` loop;
  - English `pluralized`.
- **Angle** (`angles.dfy`, module `Angles`). This covers:
  - the integer degrees/minutes/seconds initialiser with its carries;
  - the field invariant;
  - the `degrees` getter over reals;
  - fieldwise `==`.
- **SKColor** (`hex_color.dfy`, module `HexColor`). This covers:
  - `init(hexString:)`, including the `Scanner.scanHexInt32` it relies on;
  - the W3C brightness formula, with `isBright` and `isDark`;
  - `inverse` on components;
  - `lighter`.
- **BaseTypes** (`base_types.dfy`, module `BaseTypes`). This covers:
  - `PrecisionDecimals` with its raw value and format string;
  - `asIntFromDigits`;
  - the precision `==` and `!=` operators;
  - `Int.squared` and `Int.i`.
- **Dictionary** (`dictionaries.dfy`, module `Dictionaries`): `set(value:forKeys:)` and the variadic `merge`.
- **Counter** (`counters.dfy`, module `Counters`): `Counter<Int>` with `current` and `next`, and `Global.intCounter`.
- **Benchmarks** (`benchmarks.dfy`, module `Benchmarks`). This covers:
  - `Measurement`, with `done`, `elapsedTime` and `timePerRun`;
  - the name-to-measurement registry, under a clock that is an input.
- **CGTypes** (`geometry.dfy`, module `Geometry`): `CGRect.shrink(by:)` and `absoluteDistance(between:and:)`.
- **SCNVector** (`vectors.dfy`, module `Vectors`): `scale`/`scaled`, `clone`, and the `+`, `-` and `*` operators.
- `wrappers.dfy` (module `Wrappers`) holds the `Option` type that stands for Swift optionals.

Swift classes with mutable fields are modelled as immutable datatypes. Each
mutating operation is a function from the old value to the new one. Float,
CGFloat and Double are modelled as `real`. `Int` is modelled as `int`, with the
64-bit traps of the source stated as preconditions. `UInt32` wrap-around and
traps are written out where the source relies on them.

## Model

| member | source | states |
|---|---|---|
| Strings.FourCharCode | AspirinKit/Sources/Foundation/String.swift:46-53 | The code of a four-character string fits in a `UInt32`. For characters below U+0100 it is the big-endian packing `c0·2^24 + c1·2^16 + c2·2^8 + c3`. |
| Strings.FourCharCodeBytes | AspirinKit/Sources/Foundation/String.swift:46-53 | Unpacking the code of an 8-bit string byte by byte gives back its four characters (the inverse of the packing). |
| Strings.PackUnitsBounded | AspirinKit/Sources/Foundation/String.swift:48-51 | The `result = (result << 8) + unit` loop either traps or stays below 2^32. |
| Strings.Trim | AspirinKit/Sources/Foundation/String.swift:69-71 | `trim()` is the slice between the leading and the trailing whitespace. Everything cut is whitespace, and a non-empty result neither starts nor ends with whitespace. |
| Strings.TrimIdempotent | AspirinKit/Sources/Foundation/String.swift:69-71 | Trimming a trimmed string changes nothing. |
| Strings.IsBlank | AspirinKit/Sources/Foundation/String.swift:74-80 | `isBlank` holds exactly for nil and for strings made only of whitespace. |
| Strings.BlankIffTrimEmpty | AspirinKit/Sources/Foundation/String.swift:74-80 | The trimmed string is empty exactly when every character is whitespace, which links `isBlank` to `trim`. |
| Strings.RemovedPrefix | AspirinKit/Sources/Foundation/String.swift:82-87 | `removed(prefix:)` drops as many leading characters as the prefix has, without checking that they match. The dropped part followed by the result is the original. |
| Strings.RemovingPrefix | AspirinKit/Sources/Foundation/String.swift:89-95 | Without the prefix the string is returned unchanged. Otherwise `prefix + r` is the original. |
| Strings.RemovedAgreesWithRemoving | AspirinKit/Sources/Foundation/String.swift:82-95 | When the prefix is present, the mutating and the non-mutating removal agree. |
| Strings.Position | AspirinKit/Sources/Foundation/String.swift:115-123 | `position(of:)` is -1 exactly when there is no occurrence (an empty needle never occurs). Otherwise it is an occurrence with none before it. |
| Strings.PositionFrom | AspirinKit/Sources/Foundation/String.swift:125-135 | `position(of:from:)` is -1 exactly when nothing occurs at or after `from`. Otherwise it is the first occurrence at or after `from`. |
| Strings.Substring | AspirinKit/Sources/Foundation/String.swift:108-113 | `substring(from:length:)` has `length` characters, the i-th being the original's `from + i`-th. |
| Strings.RemovingSuffix | AspirinKit/Sources/Foundation/String.swift:97-106 | Without an occurrence the string is unchanged. Otherwise the result is exactly the text before the first occurrence: its length is that occurrence's position, result plus the argument is a prefix of the original, and the result does not contain the argument. |
| Strings.RemovingSuffixIdempotent | AspirinKit/Sources/Foundation/String.swift:97-106 | Removing the same suffix a second time changes nothing. |
| Strings.RemovingTrueSuffix | AspirinKit/Sources/Foundation/String.swift:97-106 | When the argument occurs only at the end, the result plus the argument is the original. |
| Strings.LastPosition | AspirinKit/Sources/Foundation/String.swift:137-154 | The result is -1 exactly when `position(of:)` is -1. Otherwise it is an occurrence no earlier than the first one, with no occurrence starting at or after its end. The result is the end of the greedy chain of non-overlapping matches that starts at the first match, so it is fixed for every input. The loop terminates. |
| Strings.ChainLastEnds | AspirinKit/Sources/Foundation/String.swift:140-151 | The end of the chain the loop follows is a match no earlier than its start, and no match starts at or after its end. |
| Strings.LastOccurrence | AspirinKit/Sources/Foundation/String.swift:137-154 | The corrected `lastPosition`: -1 exactly when `position(of:)` is -1, otherwise an occurrence with none after it. |
| Strings.LastPositionAgreesWithoutOverlap | AspirinKit/Sources/Foundation/String.swift:137-154 | When the needle's occurrences never overlap, the written loop returns the last occurrence. |
| Strings.LastPositionOverlapCounterexample | AspirinKit/Sources/Foundation/String.swift:145-146 | As written, "aa" in "aaa" gives 0 although "aa" also occurs at 1. The corrected function gives 1. |
| Strings.Pluralized | AspirinKit/Sources/Foundation/String.swift:172-208 | The string is unchanged unless the language is "en" and the count is not 1. Otherwise the rules apply: a final y not after a lowercase vowel becomes "ies"; s, or o after a lowercase consonant, gets "es"; anything else gets "s". The suffix is uppercased unless the last character is lowercase. |
| Strings.PluralizedShape | AspirinKit/Sources/Foundation/String.swift:183-206 | A pluralised word keeps all but its last character, grows, and ends in 's' or 'S'. |
| Strings.PluralizedIgnoringCase | AspirinKit/Sources/Foundation/String.swift:188-193 | The corrected rules, which also compare the second-to-last character case-insensitively. They keep the unchanged cases and the shape. |
| Strings.PluralizedIgnoringCaseCommutesWithUpper | AspirinKit/Sources/Foundation/String.swift:188-206 | With the corrected rules, pluralising an uppercased word is uppercasing the pluralised word. |
| Strings.PluralizedUppercaseCounterexample | AspirinKit/Sources/Foundation/String.swift:188 | As written, "boy" gives "boys" but "BOY" gives "BOIES". The corrected rules give "BOYS". |
| Keyboard.CarbonModifierFlags | AspirinKit/Sources/AppKit/Keyboard.swift:252-261 | Each Carbon bit (control, cmd, shift, option) is set exactly when that modifier is pressed. The mask is 0 exactly when none of the four is pressed, and below 2^13. |
| Keyboard.HasModifiersIffCarbonFlags | AspirinKit/Sources/AppKit/Keyboard.swift:245-261 | When the flags hold only the four modifiers, `hasModifiers` holds exactly when the Carbon mask is non-zero. |
| Keyboard.Hash | AspirinKit/Sources/AppKit/Keyboard.swift:269-285 | The hash is the key code plus 2^18 times the four modifier bits (`2 << 17` … `2 << 20`), which is below 2^22. |
| Keyboard.ComboEqualsIff | AspirinKit/Sources/AppKit/Keyboard.swift:448-451 | `==` (hash equality) holds exactly when the key codes and the four modifier flags agree. Other flag bits are ignored. |
| Keyboard.NewKeyboard | AspirinKit/Sources/AppKit/Keyboard.swift:300-314 | `init?(withSignature:)` fails and changes nothing when the signature's code is taken. Otherwise it registers a keyboard with no bindings and hot-key ID 1 that satisfies the invariant. |
| Keyboard.SharedKeyboardCreated | AspirinKit/Sources/AppKit/Keyboard.swift:295 | `sharedKeyboard` ("akey") is created, with signature code 0x616B6579. |
| Keyboard.ProcessEvent | AspirinKit/Sources/AppKit/Keyboard.swift:420-430 | A nil event processes nothing. Otherwise the result is true exactly when the event's combo is bound in the app bindings. |
| Keyboard.HotKeyEventDispatchesRegistered | AspirinKit/Sources/AppKit/Keyboard.swift:338-346 | On a keyboard satisfying the invariant, a hot-key event is dispatched exactly when its ID is registered. |
| Keyboard.BindKeyCombo | AspirinKit/Sources/AppKit/Keyboard.swift:362-364 | Afterwards the combo's hash maps to the new action, replacing any earlier one, and every combo equal to the bound one is processed. No other binding and no other state changes. |
| Keyboard.BindKey | AspirinKit/Sources/AppKit/Keyboard.swift:358-360 | `bindKey` is `bindKeyCombo` of the key without modifiers. Every modifier-free combo of that key is then processed. |
| Keyboard.UnbindKeyCombo | AspirinKit/Sources/AppKit/Keyboard.swift:400-402 | Afterwards no combo equal to the unbound one is processed. No other binding and no other state changes. |
| Keyboard.UnbindKey | AspirinKit/Sources/AppKit/Keyboard.swift:396-398 | `unbindKey` is `unbindKeyCombo` of the key without modifiers. |
| Keyboard.BoundEventIsProcessed | AspirinKit/Sources/AppKit/Keyboard.swift:424-442 | An event equal to a bound combo is processed after `bindKeyCombo` and not after `unbindKeyCombo`. |
| Keyboard.BindThenUnbind | AspirinKit/Sources/AppKit/Keyboard.swift:362-402 | Binding a previously unbound combo and then unbinding it restores the keyboard. |
| Keyboard.BindGlobalKeyCombo | AspirinKit/Sources/AppKit/Keyboard.swift:366-394 | The invariant is kept and the result is always true. A bound combo changes nothing. A new attempt consumes a fresh `nextHotKeyID` even when registration fails. Only a registration records the combo under that ID in all three maps, and existing bindings are kept. |
| Keyboard.UnbindGlobalLookupsSucceed | AspirinKit/Sources/AppKit/Keyboard.swift:411-412 | Under the invariant both lookups for a bound combo succeed, so the force-unwrap never fails. |
| Keyboard.UnbindGlobalKeyCombo | AspirinKit/Sources/AppKit/Keyboard.swift:404-417 | The invariant is kept, and an unbound combo is a no-op. Otherwise the combo is no longer processed, only its binding is removed, and the stored hot-key reference is handed back. |
| Keyboard.BindGlobalThenUnbind | AspirinKit/Sources/AppKit/Keyboard.swift:366-417 | A successful global bind followed by its unbind restores the keyboard, except that the hot-key ID stays consumed. The registered reference is the one handed back. |
| Keyboard.BoundHotKeyEventDispatches | AspirinKit/Sources/AppKit/Keyboard.swift:340-346 | After a successful global bind, the hot-key event carrying the new ID is dispatched. |
| Angles.Carry | AspirinKit/Sources/Math/Angle.swift:55-69 | One carry step leaves a value in 0..59. A value already in range is kept, and for non-negative values `60·higher + v` is preserved. A negative value gives `higher - (-v) / 60` and `(-v) % 60`: only the quotient takes the sign. |
| Angles.FromDMS | AspirinKit/Sources/Math/Angle.swift:49-77 | The integer initialiser always satisfies the `didSet` assertions (sign ±1, minutes and seconds below 60), and a negative sign has non-zero degrees. |
| Angles.FromDMSPreservesTotal | AspirinKit/Sources/Math/Angle.swift:55-76 | For non-negative inputs, `3600·deg + 60·min + sec` equals `3600·d + 60·m + s`. |
| Angles.FromDMSCarryExample | AspirinKit/Sources/Math/Angle.swift:45-48 | Minutes 1 and seconds 61 give minutes 2 and seconds 1. |
| Angles.FromDMSInRange | AspirinKit/Sources/Math/Angle.swift:64-76 | Minutes and seconds in 0..59 are kept, the degrees become their absolute value, and the sign is -1 exactly for negative degrees. |
| Angles.FromDMSSmallNegativeSeconds | AspirinKit/Sources/Math/Angle.swift:55-62 | Negative seconds of magnitude below 60 just lose their sign, with no borrow and no change of sign. |
| Angles.Degrees | AspirinKit/Sources/Math/Angle.swift:95-99 | The `degrees` getter times 3600 is the signed size of the angle in seconds. |
| Angles.AngleEqualsIsEquivalence | AspirinKit/Sources/Math/Angle.swift:13-15 | Fieldwise `==` is reflexive, symmetric and transitive. |
| Angles.AngleEqualsIffSameTotal | AspirinKit/Sources/Math/Angle.swift:13-15 | On constructed angles, `==` holds exactly when the signed sizes in seconds agree. |
| Angles.FromSignedTotal | AspirinKit/Sources/Math/Angle.swift:55-62 | The corrected initialiser keeps the signed size of any inputs and yields a valid angle. |
| Angles.FromSignedTotalAgreesOnNonNegative | AspirinKit/Sources/Math/Angle.swift:49-77 | On non-negative inputs the corrected and the written initialiser give the same angle. |
| Angles.NegativeSecondsCounterexample | AspirinKit/Sources/Math/Angle.swift:55-62 | As written, seconds -5 give +5 seconds, while the corrected initialiser gives -5 seconds. |
| HexColor.ScanHexInt32 | AspirinKit/Sources/SpriteKit/SKColor.swift:76-79 | The scanned value never exceeds `UInt32.max`. |
| HexColor.ScanAllHex | AspirinKit/Sources/SpriteKit/SKColor.swift:76-79 | On at most eight hex digits the scan reads exactly their value. |
| HexColor.DoubleEach | AspirinKit/Sources/SpriteKit/SKColor.swift:54-57 | Every character is written twice: the result has twice the length, and position j holds character j/2. |
| HexColor.ChannelsOf | AspirinKit/Sources/SpriteKit/SKColor.swift:81-83 | The channels taken from bits 16-23, 8-15 and 0-7 and divided by 255 all lie in [0, 1]. |
| HexColor.ParseHexString | AspirinKit/Sources/SpriteKit/SKColor.swift:45-92 | Any length other than 3, 4, 6 or 8 (counted with the '#') gives white 0 and alpha 1. Accepted lengths give RGB channels in [0, 1], and every accepted length but 8 gives alpha 100/100. |
| HexColor.ParseSixHexDigits | AspirinKit/Sources/SpriteKit/SKColor.swift:67-91 | Six hex digits in either case give red, green and blue as their three bytes over 255, with alpha 1. |
| HexColor.ShorthandDoubles | AspirinKit/Sources/SpriteKit/SKColor.swift:54-58 | "RGB" and "#RGB" parse like "RRGGBB". |
| HexColor.FormatByte | AspirinKit/Sources/SpriteKit/SKColor.swift:98 | `%02X` writes a byte as two hex digits that read back as the byte. |
| HexColor.FormatThenParse | AspirinKit/Sources/SpriteKit/SKColor.swift:94-101 | Parsing "RRGGBB" written with `%02X` gives each byte over 255 (round trip of the colour channels). |
| HexColor.ParseHexStringIntended | AspirinKit/Sources/SpriteKit/SKColor.swift:44-74 | The corrected parser measures the length after '#', expands "RGB"/"RGBA" and then reads them as six or eight digits, and takes RGB from the first six of eight digits. Lengths 3, 4, 6 and 8 give channels in [0, 1], and others give white 0 and alpha 1. |
| HexColor.IntendedAcceptsHashSix | AspirinKit/Sources/SpriteKit/SKColor.swift:44-64 | As written, "#" plus six hex digits is rejected (white 0). The corrected parser reads it like the bare six digits, which the written one parses correctly. |
| HexColor.IntendedEightDigits | AspirinKit/Sources/SpriteKit/SKColor.swift:71-74 | With the corrected parser, eight hex digits give RGB from the first six bytes and the alpha text from the last two. |
| HexColor.IntendedShorthandFour | AspirinKit/Sources/SpriteKit/SKColor.swift:54-57 | With the corrected parser, "RGBA" reads like "RRGGBBAA". |
| HexColor.EightDigitSliceCounterexample | AspirinKit/Sources/SpriteKit/SKColor.swift:71-74 | As written, "FF000000" parses to red 15/255 and green 240/255, because only five digits are scanned. |
| HexColor.IntendedRedWithAlpha | AspirinKit/Sources/SpriteKit/SKColor.swift:71-74 | With the corrected parser, "FF0000" followed by any two uppercase hex digits is pure red, and those two digits are the alpha text. |
| HexColor.EightDigitIntendedRed | AspirinKit/Sources/SpriteKit/SKColor.swift:71-74 | The corrected parser reads "FF000000" as pure red. |
| HexColor.FourDigitShorthandCounterexample | AspirinKit/Sources/SpriteKit/SKColor.swift:54-58 | As written, "F00F" (red, opaque) is doubled to "FF0000FF" and scanned whole, so it parses to blue. |
| HexColor.FourDigitIntendedRed | AspirinKit/Sources/SpriteKit/SKColor.swift:54-58 | The corrected parser reads "F00F" as pure red with alpha text "FF". |
| HexColor.Brightness | AspirinKit/Sources/SpriteKit/SKColor.swift:131-137 | Brightness is `(299r + 587g + 114b)/1000`, the W3C AERT colour-contrast formula, and lies in [0, 1] for channels in [0, 1]. |
| HexColor.IsDark | AspirinKit/Sources/SpriteKit/SKColor.swift:139-145 | `isDark` holds exactly when the brightness is below 0.5, the negation of `isBright`. |
| HexColor.WhiteBrightBlackDark | AspirinKit/Sources/SpriteKit/SKColor.swift:128-145 | White has brightness 1 and is bright. Black has brightness 0 and is dark. |
| HexColor.Inverse | AspirinKit/Sources/SpriteKit/SKColor.swift:104-126 | Every component but the last becomes `1 - c`, the last (alpha) is kept, and a one-component colour is unchanged. Unit components stay in [0, 1]. |
| HexColor.InverseInvolution | AspirinKit/Sources/SpriteKit/SKColor.swift:104-126 | Inverting twice gives back the components. |
| HexColor.Lighter | AspirinKit/Sources/SpriteKit/SKColor.swift:147-154 | Alpha is kept. Each channel becomes the smaller of itself plus 0.1 and 1: it is at most both, and equal to one of them. A channel in [0, 1] does not decrease. |
| HexColor.LightenTimesBound | AspirinKit/Sources/SpriteKit/SKColor.swift:148-151 | After n steps a unit channel stays at most 1 and has reached either 1 or its start plus n·0.1. |
| HexColor.TenTimesLighterIsWhite | AspirinKit/Sources/SpriteKit/SKColor.swift:147-154 | Over reals, ten `lighter()` steps turn any unit-channel colour into white of the same alpha. |
| BaseTypes.RawValue | AspirinKit/Sources/Foundation/BaseTypes.swift:195-201 | The raw value of case k is 10^k. |
| BaseTypes.RawValueInjective | AspirinKit/Sources/Foundation/BaseTypes.swift:195-201 | Distinct cases have distinct raw values. |
| BaseTypes.FormatString | AspirinKit/Sources/Foundation/BaseTypes.swift:203-221 | The format is "%.kf", where 10^k is the raw value. |
| BaseTypes.AsIntFromDigitsBounds | AspirinKit/Sources/Foundation/BaseTypes.swift:132-136 | `asIntFromDigits` is the greatest integer not above the value times the raw value. |
| BaseTypes.AsIntFromDigitsExample | AspirinKit/Sources/Foundation/BaseTypes.swift:132-136 | 4.356 at two decimals gives 435, as documented. |
| BaseTypes.CoarserFromFiner | AspirinKit/Sources/Foundation/BaseTypes.swift:134-136 | Truncating at a finer precision and dividing by the power of ten between two precisions gives the truncation at the coarser one. |
| BaseTypes.NotEqualAtPrecision | AspirinKit/Sources/Foundation/BaseTypes.swift:236-246 | Precision `!=` is exactly the negation of precision `==` at the same precision. |
| BaseTypes.EqualAtPrecisionIsEquivalence | AspirinKit/Sources/Foundation/BaseTypes.swift:224-234 | Precision `==` is reflexive, symmetric and transitive. |
| BaseTypes.EqualAtPrecisionIsClose | AspirinKit/Sources/Foundation/BaseTypes.swift:224-234 | Values equal at a precision differ by less than one unit of it. |
| BaseTypes.GridPointsEqualIff | AspirinKit/Sources/Foundation/BaseTypes.swift:224-234 | Multiples of one unit of a precision are equal at it only when they are identical. |
| BaseTypes.FinerImpliesCoarser | AspirinKit/Sources/Foundation/BaseTypes.swift:224-234 | Equality at a precision implies equality at every coarser one. |
| BaseTypes.Squared | AspirinKit/Sources/Foundation/BaseTypes.swift:48-50 | `squared` is non-negative, zero exactly for 0, and at least the magnitude otherwise. It traps outside 64 bits. |
| BaseTypes.SquaredOfNegation | AspirinKit/Sources/Foundation/BaseTypes.swift:48-50 | A number and its negation have the same square. |
| Dictionaries.SetForKeys | AspirinKit/Sources/Foundation/Dictionary.swift:29-34 | Afterwards the keys are the old keys plus the listed ones. Every listed key maps to the value, and unlisted keys keep their values. |
| Dictionaries.SetForNoKeys | AspirinKit/Sources/Foundation/Dictionary.swift:29-34 | An empty key list changes nothing. |
| Dictionaries.SetForKeysAppend | AspirinKit/Sources/Foundation/Dictionary.swift:29-34 | Setting the keys of two lists in turn is setting those of their concatenation. |
| Dictionaries.MergeOne | AspirinKit/Sources/Foundation/Dictionary.swift:42-44 | Copying one dictionary in gives the union of keys, with the copied values winning. |
| Dictionaries.Merge | AspirinKit/Sources/Foundation/Dictionary.swift:36-46 | The keys are the union. A key takes its value from the last argument holding it, and keys absent from every argument keep their values. |
| Dictionaries.MergeAppend | AspirinKit/Sources/Foundation/Dictionary.swift:40-46 | `merge(a, b)` is `merge(a)` followed by `merge(b)`. |
| Dictionaries.MergeSelf | AspirinKit/Sources/Foundation/Dictionary.swift:40-46 | Merging a dictionary into itself leaves it unchanged. |
| Counters.Next | AspirinKit/Sources/Util/Counter.swift:33-40 | `next` moves the value by the increment. It returns the new value, which `current` reports afterwards, and the increment is kept. |
| Counters.Advance | AspirinKit/Sources/Util/Counter.swift:33-40 | After n calls of `next`, `current` is `start + n·increment`. |
| Counters.NextTimes | AspirinKit/Sources/Util/Counter.swift:33-40 | n calls of `next` return `start + (i+1)·increment` in order, and the last is the final `current`. With a positive increment they strictly increase. |
| Counters.ValueAfterIncreasing | AspirinKit/Sources/Util/Counter.swift:33-40 | With a positive increment a later step gives a larger value. |
| Counters.IntCounterKthValue | AspirinKit/Sources/Util/Counter.swift:13 | The k-th `next` of `Global.intCounter` returns k. |
| Counters.IntCounterCanAdvance | AspirinKit/Sources/Util/Counter.swift:13 | `Global.intCounter` can take any number of steps up to `Int.max` without trapping. |
| Benchmarks.TimePerRun | AspirinKit/Sources/Util/Benchmarks.swift:13 | `timePerRun` exists exactly when the run count is non-zero, and then times the run count is the elapsed time. |
| Benchmarks.Done | AspirinKit/Sources/Util/Benchmarks.swift:21-24 | `done` keeps the name and start, measures elapsed time up to the current reading, and records the count. |
| Benchmarks.Clear | AspirinKit/Sources/Util/Benchmarks.swift:42-44 | Only the named entry is removed. |
| Benchmarks.Begin | AspirinKit/Sources/Util/Benchmarks.swift:46-49 | A fresh measurement (started now, end 0, one run) replaces the named entry, and the other entries are kept. |
| Benchmarks.End | AspirinKit/Sources/Util/Benchmarks.swift:51-57 | An absent name gives nil and no change. A present one is marked done, and that entry is both stored and returned. |
| Benchmarks.Get | AspirinKit/Sources/Util/Benchmarks.swift:59-61 | The result is the stored entry, or nil exactly when there is none. |
| Benchmarks.BeginThenEnd | AspirinKit/Sources/Util/Benchmarks.swift:16-24 | Ending a measurement just begun yields the difference of the two clock readings. |
| Benchmarks.ApplyKeepsStartedBy | AspirinKit/Sources/Util/Benchmarks.swift:42-61 | Every registry operation keeps entries under their own names and started no later than the latest clock reading. |
| Benchmarks.RunElapsedNonNegative | AspirinKit/Sources/Util/Benchmarks.swift:12-24 | With a non-decreasing clock (as `MachSystemClock` promises), every measurement ended in any run of operations has a non-negative elapsed time. |
| Geometry.Shrink | AspirinKit/Sources/CoreGraphics/CGTypes+Extensions.swift:26-28 | The origin moves back by d and the size loses d, so the far edges (`x + width`, `y + height`) move back by 2d. The rectangle is not inset about its centre. |
| Geometry.ShrinkByInt | AspirinKit/Sources/CoreGraphics/CGTypes.swift:65-67 | The `Int` overload moves the origin back and shrinks the size by the converted whole amount, so the far edges move back by twice it. |
| Geometry.ShrinkByIntCompose | AspirinKit/Sources/CoreGraphics/CGTypes.swift:65-67 | Two whole-amount shrinks are one by the sum, and shrinking by the negated amount undoes a shrink. |
| Geometry.ShrinkByZero | AspirinKit/Sources/CoreGraphics/CGTypes.swift:61-75 | Shrinking by 0 (real or `Int`) is the identity. |
| Geometry.ShrinkCompose | AspirinKit/Sources/CoreGraphics/CGTypes+Extensions.swift:26-28 | Shrinking by d1 and then d2 is shrinking by d1 + d2. |
| Geometry.ShrinkInverse | AspirinKit/Sources/CoreGraphics/CGTypes.swift:73-75 | Shrinking by -d undoes shrinking by d. |
| Geometry.AbsoluteDistance | AspirinKit/Sources/CoreGraphics/CGTypes.swift:104-106 | The distance is non-negative and equals a - b or b - a. |
| Geometry.AbsoluteDistanceIsMetric | AspirinKit/Sources/CoreGraphics/CGTypes.swift:100-106 | The distance is symmetric, zero exactly on equal arguments, and obeys the triangle inequality. |
| Vectors.SubUndoesAdd | AspirinKit/Sources/SceneKit/SCNVector.swift:66-72 | `(a + b) - b == a`. `+` is commutative, zero is neutral, and `a - a` is zero. |
| Vectors.ScaledIsScale | AspirinKit/Sources/SceneKit/SCNVector.swift:34-64 | `scaled(by:)`, `scale(by:)` and `*` compute the same vector. |
| Vectors.ScaleByOneAndZero | AspirinKit/Sources/SceneKit/SCNVector.swift:49-51 | Scaling by 1 is the identity, and scaling by 0 gives the zero vector. |
| Vectors.ScaleCompose | AspirinKit/Sources/SceneKit/SCNVector.swift:49-68 | Two scalings are one by the product, and scaling distributes over `+`. |

## Left out

- Carbon and AppKit calls in `Keyboard` are not modelled: `InstallEventHandler`, `RegisterEventHotKey`, `UnregisterEventHotKey`, `GetEventParameter` and `deinit`. These are foreign OS APIs. Registration is an input `Option<HotKeyRef>`, the handler lookup is `HandleHotKeyEvent`, and the reference to unregister is returned by `UnbindGlobalKeyCombo`.
- The asynchronous running of bound actions is not modelled. Actions are opaque values, and the model keeps only whether one is found.
- Keyboard.BindGlobalKeyCombo: requires the hot-key counter to be below `UInt32.max` when a new combo is bound, because `advanced(by: 1)` traps there.
- Keyboard.NewKeyboard: requires a four-character signature whose code does not overflow. The source asserts the length and traps on overflow.
- `KeyCombo` is a class, but it is modelled as a value keyed by its hash. The `globalHotKey` field the source stores on the combo object is kept in the ID→combo map's `Registration`.
- Keyboard.BindGlobalThenUnbind: holds for one keyboard only. In the source, `bindGlobalKeyCombo` writes `globalHotKey` on the shared `KeyCombo` object (Keyboard.swift:383), and `unbindGlobalKeyCombo` unregisters through that field (Keyboard.swift:413). If the same combo object is bound on two keyboards, the second bind overwrites the field. Unbinding on the first keyboard then unregisters the second keyboard's hot key and leaves the first one registered. The model keeps each keyboard's reference in its own `Registration`, so this cross-keyboard aliasing is not modelled.
- The `NSLog`/`print` warnings and the `Keys` constant tables are left out (logging and data).
- Strings: `Character` is a Unicode scalar, not a grapheme cluster. Search is literal, without canonical equivalence, and case mapping is ASCII-only. These are Foundation semantics outside the model.
- Strings.Pluralized: requires at least two characters when a word is to be pluralised, because reading the last two characters traps otherwise. The locale is reduced to its optional language code.
- Strings.Substring: requires offsets inside the string, and Strings.PositionFrom requires `from` inside it, because index arithmetic outside the string traps.
- `base64Value`, `createUUID`, `float`/`double`/`int` parsing and the subscript helpers are left out. They rely on Foundation conversions.
- HexColor.ParseHexString: does not evaluate the alpha of the eight-character path. `Float(text) ?? 1` of the last two characters is kept as the unparsed text.
- `Scanner` is modelled only as far as `scanHexInt32` reads: whitespace skipping, an optional "0x", hex digits and saturation.
- HexColor.FormatThenParse: covers the three colour bytes of `hexString`, not the fourth (alpha) byte. An eight-character string goes through the path recorded under Findings. The conversion from `getRed` components to `Int` is not modelled.
- HexColor.Inverse: does not model `CGColor(colorSpace:components:)` failing (nil). HexColor.Lighter assumes an RGBA colour space; the nil-components path and grey colours with two components are not modelled.
- Angle: the Float-based `degrees` setter, `radians`, `add`/`subtract` and `description` are left out. Their meaning is floating-point rounding.
- Angles.FromDMS: does not model `Int` overflow of the carries, or `UInt` conversion traps. Integers are unbounded.
- BaseTypes: `asIntFromDigits` is evaluated over reals. `Float` rounding (4.356 is not exact) and the trap of `Int(...)` beyond 64 bits are not modelled. `asPercentString`, `format`, `cgf`/`f`/`d` and the `Float.squared`, `CGFloat.squared` and `Double.squared` overloads are left out (formatting and floating point).
- Dictionaries: the `as!` casts are taken to succeed. The generic parameters are the dictionary's own key and value types.
- Counters: only `Counter<Int>` is modelled. Counters.Next: requires the advanced value to fit in 64 bits, because `advanced(by:)` traps otherwise. `Global.floatCounter` is another `Counter<Int>` with the same start and increment, so it is covered by the same model. The serialising `DispatchQueue` becomes sequential calls.
- Benchmarks.TimePerRun: a zero run count gives no value where the source divides by zero (infinity or NaN).
- Benchmarks: `measureTimeForBlock` (it runs a block on the main queue), `description`, and `MachSystemClock` itself (mach timebase I/O) are left out. The clock is an input that is assumed non-decreasing.
- Benchmarks are modelled by value. In the source, `Measurement` is a class and `endMeasurement` mutates the stored object in place, so a `Measurement` a caller obtained earlier from `getMeasurement(named:)` (or from an earlier `endMeasurement`) sees the new end time. The `measurements` dictionary itself is not public. In the model, only the stored copy and the returned value carry the end time; earlier values are not updated. Object identity and this aliasing are not modelled.
- BaseTypes.I: `Int.i` returns its receiver. It is defined as the identity and carries no contract, because any contract would only repeat that definition.
- HexColor.TenTimesLighterIsWhite: holds over reals only. With `CGFloat` as a 64-bit `Double`, ten steps from 0.0 reach 0.9999999999999999 (0.1 added ten times), not 1.0; an eleventh step gives 1.0. Floating-point rounding is not modelled.
- Geometry: the far edges are `x + width` and `y + height`. CoreGraphics `maxX`/`maxY` standardise a negative width or height first; that standardisation is not modelled.
- Vectors.Clone: `clone()` is the identity over reals, so it is defined as such and carries no contract; any contract would only repeat that definition. The `Float` round trip of `.f` on macOS, where the components are `CGFloat`, is not modelled.
- Strings.FourCharCode: requires exactly four characters, as the `assert` at String.swift:47 demands. That assertion is checked only in debug builds; an optimised build packs a string of any length, and those other lengths are not modelled.
- Strings.RemovedPrefix: requires the prefix to be no longer than the string, because `index(_:offsetBy:)` past the end traps.
- Geometry, Vectors: the `Float`/`Double`/`CGFloat` conversions between overloads are the identity over reals. `CGTypes.swift` and `CGTypes+Extensions.swift` declare the same `shrink(by:)` overloads, which are modelled once.
- The remaining files are left out:
  - UI glue, menus and alerts;
  - the SceneKit and SpriteKit object builders;
  - `Thread+Extensions` (dispatch, locking, `arc4random`);
  - `FileManager`, `Device` and `Video` (I/O and system information);
  - `CATransform3D`.
  They are I/O, concurrency or wrappers over framework objects.

## Findings

| source | as written | input that shows it | evidently intended | confidence | as-written member | corrected member |
|---|---|---|---|---|---|---|
| AspirinKit/Sources/SpriteKit/SKColor.swift:46-64 | the length is measured before '#' is removed, so "#RRGGBB" (7) is rejected | "#FF0000" gives white 0, alpha 1 | the comment at line 44 accepts "#RRGGBB" | high, not executed | HexColor.IntendedAcceptsHashSix | HexColor.ParseHexStringIntended |
| AspirinKit/Sources/SpriteKit/SKColor.swift:71-74 | eight-digit input scans only its first five characters | "FF000000" gives red 15/255, green 240/255 | RGB read from the first six digits | high, not executed | HexColor.EightDigitSliceCounterexample | HexColor.EightDigitIntendedRed |
| AspirinKit/Sources/SpriteKit/SKColor.swift:54-58 | "RGBA" is doubled to eight digits but keeps length 4, so all eight digits are scanned and the channels shift one byte | "F00F" gives blue | "RGBA" read as "RRGGBBAA" (comment at line 55) | high, not executed | HexColor.FourDigitShorthandCounterexample | HexColor.FourDigitIntendedRed |
| AspirinKit/Sources/Math/Angle.swift:55-62 | negative seconds below 60 in magnitude lose their sign | seconds -5 give +5 seconds | the sign carried into the angle (comment at lines 56-57) | high, not executed | Angles.NegativeSecondsCounterexample | Angles.FromSignedTotal |
| AspirinKit/Sources/Foundation/String.swift:188-193 | the second-to-last character is compared case-sensitively with lowercase vowels and consonants | "BOY" gives "BOIES" while "boy" gives "boys" | case-insensitive comparison, as for the last character | medium, not executed | Strings.PluralizedUppercaseCounterexample | Strings.PluralizedIgnoringCase |
| AspirinKit/Sources/Foundation/String.swift:137-154 | the search resumes at the end of each match, so an occurrence overlapping the current match is skipped and `lastPosition` can return an earlier one | "aaa", "aa" gives 0 although "aa" occurs at 1 | the last occurrence, as the name says | medium, not executed | Strings.LastPositionOverlapCounterexample | Strings.LastOccurrence |

=== FILE: angles.dfy ===
/** The sexagesimal `Angle` of Math/Angle.swift: a sign and unsigned degrees,
    minutes and seconds, built from integers with carries, read back as real
    degrees, and compared fieldwise. */
module Angles {

  datatype Angle = Angle(sign: int, deg: nat, min: nat, sec: nat)

  /** What the `didSet` assertions demand of the fields. */
  predicate Valid(a: Angle) {
    (a.sign == -1 || a.sign == 1) && a.min < 60 && a.sec < 60
  }

  function Abs(x: int): nat {
    if x < 0 then -x else x
  }

  /** The unsigned size of an angle in seconds. */
  function Magnitude(a: Angle): nat {
    3600 * a.deg + 60 * a.min + a.sec
  }

  /** The signed size of an angle in seconds. */
  function TotalSeconds(a: Angle): int {
    a.sign * Magnitude(a)
  }

  /** One carry step of the integer initialiser: a value outside 0..59 keeps
      `|v| % 60` and adds `|v| / 60`, with the sign of `v`, to the next unit up.
      For non-negative `v` the sum `60·higher + v` is kept; for negative `v` only
      the quotient is negated, so the remainder loses its sign. */
  function Carry(higher: int, v: int): (r: (int, int))
    ensures 0 <= r.1 < 60
    ensures 0 <= v ==> 60 * r.0 + r.1 == 60 * higher + v
    ensures v < 0 ==> r == (higher - (-v) / 60, (-v) % 60)
    ensures 0 <= v < 60 ==> r == (higher, v)
  {
    if v < 0 || v > 59 then
      var sign := if v < 0 then -1 else 1;
      (higher + (Abs(v) / 60) * sign, Abs(v) % 60)
    else (higher, v)
  }

  /** `init(degrees:minutes:seconds:)` on integers: carries seconds into minutes,
      then minutes into degrees, and keeps the sign of the degrees only. The
      result always satisfies the field assertions. */
  function FromDMS(d: int, m: int, s: int): (a: Angle)
    ensures Valid(a)
    ensures a.sign == -1 ==> a.deg > 0
  {
    var (m1, s1) := Carry(m, s);
    var (d1, m2) := Carry(d, m1);
    Angle(if d1 >= 0 then 1 else -1, Abs(d1), m2, s1)
  }

  /** For non-negative inputs the angle has the same size in seconds. */
  lemma FromDMSPreservesTotal(d: int, m: int, s: int)
    requires 0 <= d && 0 <= m && 0 <= s
    ensures TotalSeconds(FromDMS(d, m, s)) == 3600 * d + 60 * m + s
  {
    var (m1, s1) := Carry(m, s);
    assert 60 * m1 + s1 == 60 * m + s;
    var (d1, m2) := Carry(d, m1);
    assert 60 * d1 + m2 == 60 * d + m1;
  }

  /** The example of the initialiser's comment: one minute and 61 seconds give two
      minutes and one second. */
  lemma FromDMSCarryExample()
    ensures FromDMS(0, 1, 61) == Angle(1, 0, 2, 1)
  {
  }

  /** Minutes and seconds already in 0..59 are kept; the degrees give the sign
      and their absolute value. */
  lemma FromDMSInRange(d: int, m: int, s: int)
    requires 0 <= m < 60 && 0 <= s < 60
    ensures FromDMS(d, m, s) == Angle(if d < 0 then -1 else 1, Abs(d), m, s)
  {
  }

  /** A negative seconds value of magnitude below 60 only loses its sign: no minute
      is borrowed and the sign of the angle does not change. */
  lemma FromDMSSmallNegativeSeconds(d: int, m: int, s: int)
    requires 0 <= m < 60 && -60 < s < 0
    ensures FromDMS(d, m, s) == Angle(if d < 0 then -1 else 1, Abs(d), m, -s)
  {
  }

  /** The `degrees` getter: `sign · (deg + min/60 + sec/3600)` over the reals. */
  function Degrees(a: Angle): (r: real)
    ensures r * 3600.0 == TotalSeconds(a) as real
  {
    (a.deg as real + a.min as real / 60.0 + a.sec as real / 3600.0) * a.sign as real
  }

  /** `==` on angles compares sign, degrees, minutes and seconds. */
  predicate AngleEquals(a: Angle, b: Angle) {
    a.sign == b.sign && a.deg == b.deg && a.min == b.min && a.sec == b.sec
  }

  lemma AngleEqualsIsEquivalence(a: Angle, b: Angle, c: Angle)
    ensures AngleEquals(a, a)
    ensures AngleEquals(a, b) ==> AngleEquals(b, a)
    ensures AngleEquals(a, b) && AngleEquals(b, c) ==> AngleEquals(a, c)
  {
  }

  /** Valid, and negative only when not zero: the shape every constructed angle has. */
  predicate Canonical(a: Angle) {
    Valid(a) && (a.sign == -1 ==> Magnitude(a) > 0)
  }

  lemma DivMod60(q: int, r: int)
    requires 0 <= q && 0 <= r < 60
    ensures (60 * q + r) / 60 == q && (60 * q + r) % 60 == r
  {
  }

  /** Minutes and seconds below 60 are recovered from the magnitude. */
  lemma {:induction false} MagnitudeDetermines(a: Angle, b: Angle)
    requires Valid(a) && Valid(b) && Magnitude(a) == Magnitude(b)
    ensures a.deg == b.deg && a.min == b.min && a.sec == b.sec
  {
    DivMod60(60 * a.deg + a.min, a.sec);
    DivMod60(60 * b.deg + b.min, b.sec);
    DivMod60(a.deg, a.min);
    DivMod60(b.deg, b.min);
  }

  /** The signed size without multiplication. */
  lemma SignedTotal(a: Angle)
    requires Valid(a)
    ensures a.sign == 1 ==> TotalSeconds(a) == Magnitude(a)
    ensures a.sign == -1 ==> TotalSeconds(a) == -(Magnitude(a) as int)
  {
  }

  /** On canonical angles, `==` holds exactly when the signed sizes agree. */
  lemma {:induction false} AngleEqualsIffSameTotal(a: Angle, b: Angle)
    requires Canonical(a) && Canonical(b)
    ensures AngleEquals(a, b) <==> TotalSeconds(a) == TotalSeconds(b)
  {
    SignedTotal(a);
    SignedTotal(b);
    if TotalSeconds(a) == TotalSeconds(b) {
      assert a.sign == b.sign;
      assert Magnitude(a) == Magnitude(b);
      MagnitudeDetermines(a, b);
    }
  }

  /** The initialiser as its comments describe it: the signed size in seconds of
      the three inputs is kept, whatever their signs. */
  function FromSignedTotal(d: int, m: int, s: int): (a: Angle)
    ensures Canonical(a)
    ensures TotalSeconds(a) == 3600 * d + 60 * m + s
  {
    var total := 3600 * d + 60 * m + s;
    var size := Abs(total);
    var a := Angle(if total < 0 then -1 else 1, (size / 60) / 60, (size / 60) % 60, size % 60);
    assert Magnitude(a) == size;
    a
  }

  /** For non-negative inputs the initialiser as written and the sign-keeping one agree. */
  lemma FromSignedTotalAgreesOnNonNegative(d: int, m: int, s: int)
    requires 0 <= d && 0 <= m && 0 <= s
    ensures FromSignedTotal(d, m, s) == FromDMS(d, m, s)
  {
    FromDMSPreservesTotal(d, m, s);
    AngleEqualsIffSameTotal(FromSignedTotal(d, m, s), FromDMS(d, m, s));
  }

  /** Five negative seconds build an angle of plus five seconds, while the sign-keeping
      initialiser builds minus five seconds. */
  lemma NegativeSecondsCounterexample()
    ensures FromDMS(0, 0, -5) == Angle(1, 0, 0, 5)
    ensures TotalSeconds(FromDMS(0, 0, -5)) == 5
    ensures FromSignedTotal(0, 0, -5) == Angle(-1, 0, 0, 5)
  {
    assert Carry(0, -5) == (0, 5);
    assert Carry(0, 0) == (0, 0);
    assert 5 / 60 == 0 && 5 % 60 == 5 && 0 / 60 == 0 && 0 % 60 == 0;
  }
}

=== FILE: base_types.dfy ===
/** The numeric helpers of Foundation/BaseTypes.swift: the `PrecisionDecimals`
    enumeration, fixed-point truncation with `asIntFromDigits`, the precision
    `==`/`!=` operators built on it, and `Int.squared`/`Int.i`. Floating-point
    values are modelled as reals. */
module BaseTypes {

  const Int64Min: int := -0x8000_0000_0000_0000
  const Int64Max: int := 0x7FFF_FFFF_FFFF_FFFF

  predicate InInt64(n: int) {
    Int64Min <= n <= Int64Max
  }

  // ------------------------------------------------------------ PrecisionDecimals

  datatype PrecisionDecimals = Zero | One | Two | Three | Four | Five

  function Pow10(n: nat): (r: nat)
    ensures r >= 1
  {
    if n == 0 then 1 else 10 * Pow10(n - 1)
  }

  /** The number of decimals `formatString` writes for a precision. */
  function Decimals(p: PrecisionDecimals): (k: nat)
    ensures k <= 5
  {
    match p
    case Zero => 0
    case One => 1
    case Two => 2
    case Three => 3
    case Four => 4
    case Five => 5
  }

  /** The raw value of a case: the power of ten of its number of decimals. */
  function RawValue(p: PrecisionDecimals): (v: nat)
    ensures v == Pow10(Decimals(p))
  {
    match p
    case Zero => 1
    case One => 10
    case Two => 100
    case Three => 1000
    case Four => 10000
    case Five => 100000
  }

  /** Distinct cases have distinct raw values. */
  lemma RawValueInjective(p: PrecisionDecimals, q: PrecisionDecimals)
    ensures RawValue(p) == RawValue(q) <==> p == q
  {
  }

  /** `formatString`: a `printf` format with as many decimals as the raw value has zeros. */
  function FormatString(p: PrecisionDecimals): (s: string)
    ensures |s| == 4 && s[..2] == "%." && s[3] == 'f'
    ensures '0' <= s[2] <= '5' && Pow10(s[2] as int - '0' as int) == RawValue(p)
  {
    match p
    case Zero => "%.0f"
    case One => "%.1f"
    case Two => "%.2f"
    case Three => "%.3f"
    case Four => "%.4f"
    case Five => "%.5f"
  }

  // ------------------------------------------------------------ asIntFromDigits

  /** `asIntFromDigits`: the value scaled by the raw value and floored. */
  function AsIntFromDigits(x: real, p: PrecisionDecimals): int {
    (x * RawValue(p) as real).Floor
  }

  /** The truncation is the greatest integer not above the scaled value. */
  lemma AsIntFromDigitsBounds(x: real, p: PrecisionDecimals)
    ensures AsIntFromDigits(x, p) as real <= x * RawValue(p) as real < AsIntFromDigits(x, p) as real + 1.0
  {
  }

  /** The documented example: 4.356 at two decimals is 435. */
  lemma AsIntFromDigitsExample()
    ensures AsIntFromDigits(4.356, Two) == 435
  {
    assert 4.356 * 100.0 == 435.6;
  }

  // ------------------------------------------------------------ precision == and !=

  /** `lhs == (value, precision)`: both sides agree once truncated to the precision. */
  predicate EqualAtPrecision(lhs: real, value: real, p: PrecisionDecimals) {
    AsIntFromDigits(lhs, p) == AsIntFromDigits(value, p)
  }

  /** `lhs != (value, precision)`. */
  function NotEqualAtPrecision(lhs: real, value: real, p: PrecisionDecimals): (b: bool)
    ensures b <==> !EqualAtPrecision(lhs, value, p)
  {
    AsIntFromDigits(lhs, p) != AsIntFromDigits(value, p)
  }

  lemma EqualAtPrecisionIsEquivalence(x: real, y: real, z: real, p: PrecisionDecimals)
    ensures EqualAtPrecision(x, x, p)
    ensures EqualAtPrecision(x, y, p) ==> EqualAtPrecision(y, x, p)
    ensures EqualAtPrecision(x, y, p) && EqualAtPrecision(y, z, p) ==> EqualAtPrecision(x, z, p)
  {
  }

  /** Values equal at a precision differ by less than one unit of it. */
  lemma EqualAtPrecisionIsClose(x: real, y: real, p: PrecisionDecimals)
    requires EqualAtPrecision(x, y, p)
    ensures -1.0 < (x - y) * RawValue(p) as real < 1.0
  {
    AsIntFromDigitsBounds(x, p);
    AsIntFromDigitsBounds(y, p);
    assert (x - y) * RawValue(p) as real == x * RawValue(p) as real - y * RawValue(p) as real;
  }

  /** Points of the grid of a precision are equal at it only when they are the same point. */
  lemma {:induction false} GridPointsEqualIff(a: int, b: int, p: PrecisionDecimals)
    ensures EqualAtPrecision(a as real / RawValue(p) as real, b as real / RawValue(p) as real, p) <==> a == b
  {
    var raw := RawValue(p) as real;
    assert a as real / raw * raw == a as real;
    assert b as real / raw * raw == b as real;
    assert AsIntFromDigits(a as real / raw, p) == a;
    assert AsIntFromDigits(b as real / raw, p) == b;
  }

  lemma {:induction false} Pow10Add(i: nat, j: nat)
    ensures Pow10(i + j) == Pow10(i) * Pow10(j)
  {
    if i > 0 {
      Pow10Add(i - 1, j);
    }
  }

  lemma MulMonotoneReal(a: real, b: real, c: real)
    requires a <= b && c >= 0.0
    ensures a * c <= b * c
  {
    assert (b - a) * c >= 0.0;
  }

  lemma MulStrictReal(a: real, b: real, c: real)
    requires a < b && c > 0.0
    ensures a * c < b * c
  {
    assert (b - a) * c > 0.0;
  }

  lemma MulMonotoneInt(a: int, b: int, m: int)
    requires a <= b && m >= 0
    ensures a * m <= b * m
  {
    assert (b - a) * m >= 0;
  }

  /** The quotient of `f` by `m` is the `k` whose multiples bracket `f`. */
  lemma DivUnique(f: int, k: int, m: int)
    requires m >= 1 && k * m <= f < (k + 1) * m
    ensures f / m == k
  {
    var q := f / m;
    assert q * m <= f < q * m + m;
    if q > k {
      MulMonotoneInt(k + 1, q, m);
    } else if q < k {
      MulMonotoneInt(q + 1, k, m);
    }
  }

  /** Flooring `y·m` and dividing by `m` floors `y`. */
  lemma FloorScaled(y: real, m: nat)
    requires m >= 1
    ensures (y * m as real).Floor / m == y.Floor
  {
    var k := y.Floor;
    var f := (y * m as real).Floor;
    var mr := m as real;
    assert f as real <= y * mr < f as real + 1.0;
    MulMonotoneReal(k as real, y, mr);
    MulStrictReal(y, k as real + 1.0, mr);
    assert (k * m) as real == k as real * mr;
    assert ((k + 1) * m) as real == (k as real + 1.0) * mr;
    assert (k * m) as real < f as real + 1.0;
    assert k * m <= f;
    assert f as real < ((k + 1) * m) as real;
    assert f < (k + 1) * m;
    DivUnique(f, k, m);
  }

  /** Scaling by a product of naturals is scaling twice. */
  lemma ScaleByProduct(x: real, a: nat, m: nat)
    ensures x * (a * m) as real == (x * a as real) * m as real
  {
    assert (a * m) as real == a as real * m as real;
  }

  /** The raw value of a finer precision is that of a coarser one times a power of ten. */
  lemma RawValueRatio(p: PrecisionDecimals, q: PrecisionDecimals)
    requires Decimals(q) <= Decimals(p)
    ensures RawValue(p) == RawValue(q) * Pow10(Decimals(p) - Decimals(q))
  {
    Pow10Add(Decimals(q), Decimals(p) - Decimals(q));
  }

  lemma CoarserFloor(x: real, a: nat, m: nat)
    requires m >= 1
    ensures (x * (a * m) as real).Floor / m == (x * a as real).Floor
  {
    var scaled := x * a as real;
    ScaleByProduct(x, a, m);
    assert (x * (a * m) as real).Floor == (scaled * m as real).Floor;
    FloorScaled(scaled, m);
  }

  /** Truncating at a finer precision and dividing by the power of ten between
      the two precisions truncates at the coarser one. */
  lemma {:induction false} CoarserFromFiner(x: real, p: PrecisionDecimals, q: PrecisionDecimals)
    requires Decimals(q) <= Decimals(p)
    ensures AsIntFromDigits(x, p) / Pow10(Decimals(p) - Decimals(q)) == AsIntFromDigits(x, q)
  {
    var m := Pow10(Decimals(p) - Decimals(q));
    RawValueRatio(p, q);
    CoarserFloor(x, RawValue(q), m);
  }

  /** Equality at a finer precision implies equality at every coarser one. */
  lemma {:induction false} FinerImpliesCoarser(x: real, y: real, p: PrecisionDecimals, q: PrecisionDecimals)
    requires Decimals(q) <= Decimals(p)
    requires EqualAtPrecision(x, y, p)
    ensures EqualAtPrecision(x, y, q)
  {
    CoarserFromFiner(x, p, q);
    CoarserFromFiner(y, p, q);
  }

  // ------------------------------------------------------------ Int helpers

  /** `Int.squared`: `self * self`, which traps outside the 64-bit range. */
  function Squared(n: int): (r: int)
    requires InInt64(n * n)
    ensures r >= 0
    ensures r == 0 <==> n == 0
    ensures n != 0 ==> r >= if n < 0 then -n else n
  {
    n * n
  }

  lemma SquaredOfNegation(n: int)
    requires InInt64(n * n)
    ensures Squared(-n) == Squared(n)
  {
  }

  /** `Int.i`: the value itself. */
  function I(n: int): int {
    n
  }
}

=== FILE: benchmarks.dfy ===
/** The `Measurement` record and the `Benchmarks` name-to-measurement registry of
    Util/Benchmarks.swift. The clock (`MachSystemClock.absoluteTime`) is a
    parameter: each operation that reads it is given the reading `now`. */
module Benchmarks {
  import opened Wrappers

  datatype Measurement = Measurement(name: string, startTime: real, endTime: real, runCount: int)

  /** `Measurement(named:)` at clock reading `now`: started now, not yet ended
      (end time 0), one run. */
  function Started(name: string, now: real): Measurement {
    Measurement(name, now, 0.0, 1)
  }

  /** `elapsedTime`: end time minus start time. */
  function ElapsedTime(m: Measurement): real {
    m.endTime - m.startTime
  }

  /** `timePerRun`: the elapsed time shared out over the runs. With no runs the
      source divides by zero and gets an infinity or NaN; here there is no value. */
  function TimePerRun(m: Measurement): (t: Option<real>)
    ensures t.Some? <==> m.runCount != 0
    ensures t.Some? ==> t.value * m.runCount as real == ElapsedTime(m)
  {
    if m.runCount == 0 then None else Some(ElapsedTime(m) / m.runCount as real)
  }

  /** `done(runCount:)` at clock reading `now`: ended now with `count` runs. */
  function Done(m: Measurement, count: int, now: real): (r: Measurement)
    ensures r.name == m.name && r.startTime == m.startTime
    ensures ElapsedTime(r) == now - m.startTime
    ensures r.runCount == count
  {
    m.(endTime := now, runCount := count)
  }

  datatype Registry = Registry(measurements: map<string, Measurement>)

  /** Every entry is stored under its own name and was started no later than `now`. */
  predicate StartedBy(reg: Registry, now: real) {
    forall n :: n in reg.measurements ==> reg.measurements[n].name == n && reg.measurements[n].startTime <= now
  }

  /** `clearMeasurements(named:)`: only the named entry is removed. */
  function Clear(reg: Registry, name: string): (r: Registry)
    ensures r.measurements.Keys == reg.measurements.Keys - {name}
    ensures forall n :: n in r.measurements ==> r.measurements[n] == reg.measurements[n]
  {
    Registry(reg.measurements - {name})
  }

  /** `beginMeasurement(named:)`: a fresh measurement, started now, replaces any
      entry of that name; the other entries are kept. */
  function Begin(reg: Registry, name: string, now: real): (r: Registry)
    ensures r.measurements.Keys == reg.measurements.Keys + {name}
    ensures r.measurements[name] == Started(name, now)
    ensures forall n :: n in reg.measurements && n != name ==> r.measurements[n] == reg.measurements[n]
  {
    Registry(reg.measurements[name := Started(name, now)])
  }

  /** `endMeasurement(named:runCount:)`: an absent name gives nil and no change;
      a present one is marked done now with `count` runs, and that updated
      entry is both stored and returned. */
  function End(reg: Registry, name: string, count: int, now: real): (r: (Registry, Option<Measurement>))
    ensures name !in reg.measurements ==> r == (reg, None)
    ensures name in reg.measurements ==>
      && r.1 == Some(Done(reg.measurements[name], count, now))
      && r.0.measurements == reg.measurements[name := r.1.value]
  {
    if name in reg.measurements then
      var measure := Done(reg.measurements[name], count, now);
      (Registry(reg.measurements[name := measure]), Some(measure))
    else (reg, None)
  }

  /** `getMeasurement(named:)`: the stored entry, or nil. */
  function Get(reg: Registry, name: string): (r: Option<Measurement>)
    ensures r.Some? <==> name in reg.measurements
    ensures r.Some? ==> r.value == reg.measurements[name]
  {
    if name in reg.measurements then Some(reg.measurements[name]) else None
  }

  /** Ending a measurement just begun reads the same clock difference as
      `measureTimeForBlock` would. */
  lemma BeginThenEnd(reg: Registry, name: string, count: int, t0: real, t1: real)
    ensures End(Begin(reg, name, t0), name, count, t1).1 == Some(Measurement(name, t0, t1, count))
    ensures ElapsedTime(End(Begin(reg, name, t0), name, count, t1).1.value) == t1 - t0
  {
  }

  // ------------------------------------------------------------ a monotonic clock

  /** A registry operation; `GetOp` reads without changing anything. */
  datatype Op = BeginOp(name: string) | EndOp(name: string, count: int) | ClearOp(name: string) | GetOp(name: string)

  /** The clock readings never decrease, as `MachSystemClock` promises. */
  predicate NonDecreasing(clock: seq<real>) {
    forall i, j :: 0 <= i < j < |clock| ==> clock[i] <= clock[j]
  }

  /** One operation at clock reading `now`: the registry after it and what it returns. */
  function Apply(reg: Registry, op: Op, now: real): (Registry, Option<Measurement>) {
    match op
    case BeginOp(name) => (Begin(reg, name, now), None)
    case EndOp(name, count) => End(reg, name, count, now)
    case ClearOp(name) => (Clear(reg, name), None)
    case GetOp(name) => (reg, Get(reg, name))
  }

  /** Every operation, with the clock reading it sees, keeps entries stored under
      their names and started by the latest reading. */
  lemma ApplyKeepsStartedBy(reg: Registry, op: Op, t: real, now: real)
    requires StartedBy(reg, t) && t <= now
    ensures StartedBy(Apply(reg, op, now).0, now)
    ensures op.EndOp? && Apply(reg, op, now).1.Some? ==> ElapsedTime(Apply(reg, op, now).1.value) >= 0.0
    ensures op.GetOp? && Apply(reg, op, now).1.Some? ==> Apply(reg, op, now).1.value.startTime <= now
  {
  }

  /** A run of operations, the i-th at clock reading `clock[i]`: the final registry
      and every measurement an `endMeasurement` returned. */
  function Run(reg: Registry, ops: seq<Op>, clock: seq<real>): (r: (Registry, seq<Measurement>))
    requires |ops| == |clock|
    decreases |ops|
  {
    if ops == [] then (reg, [])
    else
      var (next, returned) := Apply(reg, ops[0], clock[0]);
      var (last, ended) := Run(next, ops[1..], clock[1..]);
      (last, if ops[0].EndOp? && returned.Some? then [returned.value] + ended else ended)
  }

  /** With a clock that never goes back, every measurement ended during a run
      has a non-negative elapsed time. */
  lemma {:induction false} RunElapsedNonNegative(reg: Registry, ops: seq<Op>, clock: seq<real>, t: real)
    requires |ops| == |clock| && NonDecreasing(clock)
    requires StartedBy(reg, t) && (|clock| > 0 ==> t <= clock[0])
    ensures forall m :: m in Run(reg, ops, clock).1 ==> ElapsedTime(m) >= 0.0
    decreases |ops|
  {
    if ops != [] {
      ApplyKeepsStartedBy(reg, ops[0], t, clock[0]);
      var next := Apply(reg, ops[0], clock[0]).0;
      assert NonDecreasing(clock[1..]);
      if |clock| > 1 {
        assert clock[0] <= clock[1];
      }
      RunElapsedNonNegative(next, ops[1..], clock[1..], clock[0]);
    }
  }
}

=== FILE: counters.dfy ===
/** The `Counter` of Util/Counter.swift over `Int`: a current value and an
    increment, advanced by `next`. The serial `DispatchQueue` that guards `next`
    makes calls happen one after another, which is what a sequence of calls on
    an immutable value models. */
module Counters {
  import BaseTypes

  datatype Counter = Counter(currentValue: int, increment: int)

  /** `Global.intCounter`: starts at 0 and steps by 1. */
  const IntCounter: Counter := Counter(0, 1)

  /** `init(start:increment:)` followed by `current`: a new counter reports its start. */
  function Current(c: Counter): int {
    c.currentValue
  }

  /** The value a counter reaches after `n` steps. */
  function ValueAfter(c: Counter, n: nat): int {
    c.currentValue + n * c.increment
  }

  /** Every one of the first `n` steps stays in the 64-bit range, where
      `advanced(by:)` does not trap. */
  predicate CanAdvance(c: Counter, n: nat) {
    forall k: nat :: 1 <= k <= n ==> BaseTypes.InInt64(ValueAfter(c, k))
  }

  /** `next`: the stored value moves by the increment, and the moved value is
      both returned and what `current` reports afterwards. */
  function Next(c: Counter): (r: (Counter, int))
    requires BaseTypes.InInt64(c.currentValue + c.increment)
    ensures r.0.increment == c.increment
    ensures Current(r.0) == r.1
    ensures r.1 - Current(c) == c.increment
  {
    var moved := c.currentValue + c.increment;
    (Counter(moved, c.increment), moved)
  }

  /** The counter after `n` calls of `next`: `current` is then `start + n * increment`. */
  function Advance(c: Counter, n: nat): (d: Counter)
    requires CanAdvance(c, n)
    ensures d.increment == c.increment
    ensures Current(d) == c.currentValue + n * c.increment
  {
    if n == 0 then c
    else
      assert CanAdvance(c, n - 1);
      var before := Advance(c, n - 1);
      assert before.currentValue + before.increment == ValueAfter(c, n);
      Next(before).0
  }

  /** With a positive increment a later step gives a strictly larger value. */
  lemma ValueAfterIncreasing(c: Counter, i: nat, j: nat)
    requires c.increment > 0 && i < j
    ensures ValueAfter(c, i) < ValueAfter(c, j)
  {
    assert j * c.increment - i * c.increment == (j - i) * c.increment;
  }

  /** `n` calls of `next` in a row: the values returned, in order, and the counter
      left behind. With a positive increment the values strictly increase, so
      no two are alike. */
  method NextTimes(c: Counter, n: nat) returns (d: Counter, values: seq<int>)
    requires CanAdvance(c, n)
    ensures d.increment == c.increment && Current(d) == c.currentValue + n * c.increment
    ensures |values| == n
    ensures forall i :: 0 <= i < n ==> values[i] == c.currentValue + (i + 1) * c.increment
    ensures n > 0 ==> values[n - 1] == Current(d)
    ensures c.increment > 0 ==> forall i, j :: 0 <= i < j < n ==> values[i] < values[j]
  {
    d := c;
    values := [];
    var i := 0;
    while i < n
      invariant 0 <= i <= n
      invariant d == Counter(ValueAfter(c, i), c.increment)
      invariant |values| == i
      invariant forall k :: 0 <= k < i ==> values[k] == ValueAfter(c, k + 1)
    {
      assert ValueAfter(c, i) + c.increment == ValueAfter(c, i + 1);
      assert BaseTypes.InInt64(ValueAfter(c, i + 1));
      var step := Next(d);
      d := step.0;
      values := values + [step.1];
      i := i + 1;
    }
    if c.increment > 0 {
      forall i, j | 0 <= i < j < n
        ensures values[i] < values[j]
      {
        ValueAfterIncreasing(c, i + 1, j + 1);
      }
    }
  }

  /** The k-th `next` of `Global.intCounter` returns k. */
  lemma IntCounterKthValue(k: nat)
    requires CanAdvance(IntCounter, k)
    ensures Current(Advance(IntCounter, k)) == k
  {
  }

  /** `Global.intCounter` can take any number of steps below 2^63. */
  lemma IntCounterCanAdvance(k: nat)
    requires k <= BaseTypes.Int64Max
    ensures CanAdvance(IntCounter, k)
  {
  }
}

=== FILE: dictionaries.dfy ===
/** The `Dictionary` extension of Foundation/Dictionary.swift: `set(value:forKeys:)`
    and the variadic `merge`. A dictionary is a `map`; `updateValue(_:forKey:)`
    is map update. */
module Dictionaries {

  /** `set(value:forKeys:)`: every listed key, in order, is updated to `value`. */
  function SetForKeys<K(!new), V>(d: map<K, V>, value: V, keys: seq<K>): (r: map<K, V>)
    ensures forall k :: k in r <==> k in d || k in keys
    ensures forall k :: k in keys ==> r[k] == value
    ensures forall k :: k in d && k !in keys ==> r[k] == d[k]
    decreases |keys|
  {
    if keys == [] then d else SetForKeys(d[keys[0] := value], value, keys[1..])
  }

  /** An empty key list leaves the dictionary as it was. */
  lemma SetForNoKeys<K(!new), V>(d: map<K, V>, value: V)
    ensures SetForKeys(d, value, []) == d
  {
  }

  /** Setting the keys of two lists is setting those of their concatenation. */
  lemma {:induction false} SetForKeysAppend<K(!new), V>(d: map<K, V>, value: V, xs: seq<K>, ys: seq<K>)
    ensures SetForKeys(SetForKeys(d, value, xs), value, ys) == SetForKeys(d, value, xs + ys)
  {
    var lhs := SetForKeys(SetForKeys(d, value, xs), value, ys);
    var rhs := SetForKeys(d, value, xs + ys);
    assert forall k :: k in xs + ys <==> k in xs || k in ys;
    assert lhs.Keys == rhs.Keys;
    assert forall k :: k in lhs ==> lhs[k] == rhs[k];
  }

  /** The keys of one dictionary copied into another, one `updateValue` each. */
  function MergeOne<K(!new), V>(d: map<K, V>, e: map<K, V>): (r: map<K, V>)
    ensures r.Keys == d.Keys + e.Keys
    ensures forall k :: k in e ==> r[k] == e[k]
    ensures forall k :: k in d && k !in e ==> r[k] == d[k]
  {
    d + e
  }

  /** No dictionary after position `i` holds `k`. */
  predicate AbsentAfter<K(!new), V>(k: K, ds: seq<map<K, V>>, i: int) {
    forall j :: 0 <= j < |ds| && i < j ==> k !in ds[j]
  }

  /** `merge(_ dictionaries...)`: the dictionaries are copied in, in order, so a
      later one overrides the values an earlier one (or the receiver) set. */
  function Merge<K(!new), V>(d: map<K, V>, ds: seq<map<K, V>>): (r: map<K, V>)
    ensures forall k :: k in r <==> k in d || exists i :: 0 <= i < |ds| && k in ds[i]
    ensures forall k :: k in d && AbsentAfter(k, ds, -1) ==> r[k] == d[k]
    ensures forall k, i :: 0 <= i < |ds| && k in ds[i] && AbsentAfter(k, ds, i) ==> r[k] == ds[i][k]
    decreases |ds|
  {
    if ds == [] then d
    else
      var r := Merge(MergeOne(d, ds[0]), ds[1..]);
      assert forall k, i :: 1 <= i < |ds| && AbsentAfter(k, ds, i) ==> AbsentAfter(k, ds[1..], i - 1);
      assert forall k :: AbsentAfter(k, ds, 0) ==> AbsentAfter(k, ds[1..], -1);
      assert forall k :: k in r <==> k in d || k in ds[0] || exists i :: 1 <= i < |ds| && k in ds[i] by {
        forall k, i | 1 <= i < |ds| && k in ds[i]
          ensures exists j :: 0 <= j < |ds[1..]| && k in ds[1..][j]
        {
          assert k in ds[1..][i - 1];
        }
      }
      r
  }

  /** Merging a list of dictionaries is merging its parts one after the other;
      in particular `merge(a, b)` is `merge(a)` then `merge(b)`. */
  lemma {:induction false} MergeAppend<K(!new), V>(d: map<K, V>, xs: seq<map<K, V>>, ys: seq<map<K, V>>)
    ensures Merge(d, xs + ys) == Merge(Merge(d, xs), ys)
    decreases |xs|
  {
    if xs == [] {
      assert xs + ys == ys;
    } else {
      assert (xs + ys)[1..] == xs[1..] + ys;
      MergeAppend(MergeOne(d, xs[0]), xs[1..], ys);
    }
  }

  /** Merging a dictionary into itself leaves it unchanged. */
  lemma MergeSelf<K(!new), V>(d: map<K, V>)
    ensures Merge(d, [d]) == d
  {
    assert Merge(d, [d]) == Merge(d + d, []);
  }
}

=== FILE: geometry.dfy ===
/** The CoreGraphics helpers of CoreGraphics/CGTypes.swift and
    CoreGraphics/CGTypes+Extensions.swift: `CGRect.shrink(by:)` and
    `absoluteDistance(between:and:)`, over reals. Both files declare the same
    `shrink(by:)` overloads with the same bodies; they are modelled once. */
module Geometry {

  /** A `CGRect` as origin and size. */
  datatype Rect = Rect(x: real, y: real, width: real, height: real)

  /** The far edge on the x axis, `x + width`. This is `CGRect.maxX` only while
      the width is non-negative: CoreGraphics standardises a negative size first. */
  function MaxX(r: Rect): real {
    r.x + r.width
  }

  /** The far edge on the y axis, `y + height`; `CGRect.maxY` while the height is non-negative. */
  function MaxY(r: Rect): real {
    r.y + r.height
  }

  /** `shrink(by:)` with a `CGFloat`: the origin moves back by `dim` on both axes
      and the size loses `dim` in both dimensions, so the far edges move back by
      twice `dim`: the rectangle is not inset about its centre. */
  function Shrink(r: Rect, dim: real): (s: Rect)
    ensures s.x == r.x - dim && s.y == r.y - dim
    ensures s.width == r.width - dim && s.height == r.height - dim
    ensures MaxX(s) == MaxX(r) - 2.0 * dim && MaxY(s) == MaxY(r) - 2.0 * dim
  {
    Rect(r.x - dim, r.y - dim, r.width - dim, r.height - dim)
  }

  /** `shrink(by:)` with an `Int`: the value converted to `CGFloat` first. */
  function ShrinkByInt(r: Rect, dim: int): (s: Rect)
    ensures s.x == r.x - dim as real && s.y == r.y - dim as real
    ensures s.width == r.width - dim as real && s.height == r.height - dim as real
    ensures MaxX(s) == MaxX(r) - 2.0 * dim as real && MaxY(s) == MaxY(r) - 2.0 * dim as real
  {
    Shrink(r, dim as real)
  }

  /** Shrinking by nothing changes nothing. */
  lemma ShrinkByZero(r: Rect)
    ensures Shrink(r, 0.0) == r
    ensures ShrinkByInt(r, 0) == r
  {
  }

  /** Two shrinks are one by the sum. */
  lemma ShrinkCompose(r: Rect, d1: real, d2: real)
    ensures Shrink(Shrink(r, d1), d2) == Shrink(r, d1 + d2)
  {
  }

  /** Two shrinks by whole amounts are one by their sum, and shrinking by `-d`
      undoes shrinking by `d`. */
  lemma ShrinkByIntCompose(r: Rect, d1: int, d2: int)
    ensures ShrinkByInt(ShrinkByInt(r, d1), d2) == ShrinkByInt(r, d1 + d2)
    ensures ShrinkByInt(ShrinkByInt(r, d1), -d1) == r
  {
  }

  /** Shrinking by a negative amount undoes shrinking by the positive one. */
  lemma ShrinkInverse(r: Rect, d: real)
    ensures Shrink(Shrink(r, d), -d) == r
  {
  }

  /** `absoluteDistance(between:and:)`: the larger minus the smaller. */
  function AbsoluteDistance(a: real, b: real): (d: real)
    ensures d >= 0.0
    ensures d == a - b || d == b - a
  {
    if a > b then a - b else b - a
  }

  /** The distance is symmetric, vanishes exactly on equal arguments, and obeys
      the triangle inequality. */
  lemma AbsoluteDistanceIsMetric(a: real, b: real, c: real)
    ensures AbsoluteDistance(a, b) == AbsoluteDistance(b, a)
    ensures AbsoluteDistance(a, b) == 0.0 <==> a == b
    ensures AbsoluteDistance(a, c) <= AbsoluteDistance(a, b) + AbsoluteDistance(b, c)
  {
  }
}

=== FILE: hex_color.dfy ===
/** The colour helpers of SpriteKit/SKColor.swift: parsing a hex string into
    channels, the W3C brightness formula, the component inverse and `lighter`.
    Channels are reals; the `SKColor`/`CGColor` objects are reduced to their
    components. */
module HexColor {
  import opened Wrappers
  import Strings

  const UInt32Max: nat := 0xFFFF_FFFF

  // ------------------------------------------------------------ scanning

  predicate IsHexDigit(c: char) {
    '0' <= c <= '9' || 'A' <= c <= 'F' || 'a' <= c <= 'f'
  }

  predicate AllHex(s: string) {
    forall i :: 0 <= i < |s| ==> IsHexDigit(s[i])
  }

  function HexDigitValue(c: char): (v: nat)
    requires IsHexDigit(c)
    ensures v < 16
  {
    if '0' <= c <= '9' then c as int - '0' as int
    else if 'A' <= c <= 'F' then c as int - 'A' as int + 10
    else c as int - 'a' as int + 10
  }

  function Pow16(n: nat): nat {
    if n == 0 then 1 else 16 * Pow16(n - 1)
  }

  /** The value of a run of hex digits, most significant first. */
  function HexValue(digits: string): (v: nat)
    requires AllHex(digits)
    ensures v < Pow16(|digits|)
  {
    if digits == [] then 0
    else HexValue(digits[..|digits| - 1]) * 16 + HexDigitValue(digits[|digits| - 1])
  }

  /** Number of leading hex digits. */
  function HexDigitCount(s: string): (n: nat)
    ensures n <= |s|
    ensures AllHex(s[..n])
    ensures n < |s| ==> !IsHexDigit(s[n])
  {
    if s == [] || !IsHexDigit(s[0]) then 0
    else
      var n := 1 + HexDigitCount(s[1..]);
      assert s[..n] == [s[0]] + s[1..][..n - 1];
      n
  }

  /** Number of leading characters a `Scanner` skips by default. */
  function SkippedCount(s: string): (n: nat)
    ensures n <= |s|
    ensures n < |s| ==> !Strings.IsWhitespaceOrNewline(s[n])
  {
    if s == [] || !Strings.IsWhitespaceOrNewline(s[0]) then 0 else 1 + SkippedCount(s[1..])
  }

  /** `Scanner.scanHexInt32`: skips whitespace and newlines, accepts an optional
      "0x"/"0X", reads the longest run of hex digits, and gives `UInt32.max` on
      overflow; no digits leave the target at 0. */
  function ScanHexInt32(s: string): (v: nat)
    ensures v <= UInt32Max
  {
    var t := s[SkippedCount(s)..];
    var u := if |t| >= 2 && t[0] == '0' && (t[1] == 'x' || t[1] == 'X') then t[2..] else t;
    var value := HexValue(u[..HexDigitCount(u)]);
    if value <= UInt32Max then value else UInt32Max
  }

  lemma {:induction false} HexDigitCountAllHex(s: string)
    requires AllHex(s)
    ensures HexDigitCount(s) == |s|
  {
    if s != [] {
      HexDigitCountAllHex(s[1..]);
    }
  }

  lemma {:induction false} Pow16Monotone(n: nat, m: nat)
    requires n <= m
    ensures Pow16(n) <= Pow16(m)
  {
    if n < m {
      Pow16Monotone(n, m - 1);
    }
  }

  lemma Pow16Eight()
    ensures Pow16(8) == UInt32Max + 1
  {
    assert Pow16(2) == 0x100;
    assert Pow16(4) == 0x1_0000;
    assert Pow16(6) == 0x100_0000;
  }

  /** A string of hex digits is neither skipped nor taken for a "0x" prefix. */
  lemma ScanStartsAtDigits(s: string)
    requires AllHex(s)
    ensures SkippedCount(s) == 0
    ensures !(|s| >= 2 && s[0] == '0' && (s[1] == 'x' || s[1] == 'X'))
  {
    if s != [] {
      assert !Strings.IsWhitespaceOrNewline(s[0]);
    }
    if |s| >= 2 {
      assert IsHexDigit(s[1]);
    }
  }

  /** On a string of at most eight hex digits the scan reads exactly their value. */
  lemma ScanAllHex(s: string)
    requires AllHex(s) && |s| <= 8
    ensures ScanHexInt32(s) == HexValue(s)
  {
    ScanStartsAtDigits(s);
    assert s[0..] == s;
    HexDigitCountAllHex(s);
    assert s[..|s|] == s;
    Pow16Monotone(|s|, 8);
    Pow16Eight();
  }

  /** `map { "\($0)\($0)" }.joined()`: every character twice. */
  function DoubleEach(s: string): (r: string)
    ensures |r| == 2 * |s|
    ensures forall j :: 0 <= j < |r| ==> r[j] == s[j / 2]
  {
    if s == [] then [] else [s[0], s[0]] + DoubleEach(s[1..])
  }

  // ------------------------------------------------------------ init(hexString:)

  /** The alpha of a parsed colour: a fixed value, or the one the source reads
      from the last two characters with `Float(_:)`, i.e. `(Float(text) ?? 1) / 100`,
      which this model does not evaluate. */
  datatype Alpha = Fixed(value: real) | FromDecimalText(text: string)

  datatype ParsedColor =
    | Gray(white: real, grayAlpha: real)
    | Rgb(red: real, green: real, blue: real, alpha: Alpha)

  predicate InUnit(x: real) {
    0.0 <= x <= 1.0
  }

  /** Bits 16–23, 8–15 and 0–7 of the scanned value, each divided by 255. */
  function ChannelsOf(rgb: nat, alpha: Alpha): (c: ParsedColor)
    ensures c.Rgb? && InUnit(c.red) && InUnit(c.green) && InUnit(c.blue) && c.alpha == alpha
  {
    Rgb(((rgb / 0x1_0000) % 0x100) as real / 255.0,
        ((rgb / 0x100) % 0x100) as real / 255.0,
        (rgb % 0x100) as real / 255.0,
        alpha)
  }

  predicate AcceptedLength(n: int) {
    n == 3 || n == 4 || n == 6 || n == 8
  }

  /** Uppercasing keeps a leading '#' and creates none. */
  lemma UpperHash(s: string)
    ensures |Strings.ToUpper(s)| == |s|
    ensures Strings.HasPrefix(Strings.ToUpper(s), "#") <==> |s| > 0 && s[0] == '#'
  {
    if |s| > 0 {
      assert Strings.ToUpper(s)[..1] == [Strings.ToUpperChar(s[0])];
    }
  }

  /** The length of a hex string once a leading '#' is removed. */
  function DigitsLength(hexString: string): (n: int)
    ensures n == |hexString| || n == |hexString| - 1
  {
    if |hexString| > 0 && hexString[0] == '#' then |hexString| - 1 else |hexString|
  }

  /** `init(hexString:)`. The string is uppercased and its length taken BEFORE a
      leading '#' is removed; only lengths 3, 4, 6 and 8 are accepted, any other
      gives white 0 with alpha 1. Lengths 3 and 4 double every remaining
      character. Length 8 scans only the first five remaining characters and
      reads the alpha from the last two. */
  function ParseHexString(hexString: string): (c: ParsedColor)
    ensures !AcceptedLength(|hexString|) ==> c == Gray(0.0, 1.0)
    ensures AcceptedLength(|hexString|) ==> c.Rgb? && InUnit(c.red) && InUnit(c.green) && InUnit(c.blue)
    ensures AcceptedLength(|hexString|) && |hexString| != 8 ==> c.alpha == Fixed(1.0)
  {
    var hex := Strings.ToUpper(hexString);
    var hexLength := |hex|;
    var stripped := if Strings.HasPrefix(hex, "#") then Strings.RemovedPrefix(hex, "#") else hex;
    if hexLength == 3 || hexLength == 4 then
      ChannelsOf(ScanHexInt32(DoubleEach(stripped)), Fixed(100.0 / 100.0))
    else if !(hexLength == 6 || hexLength == 8) then
      Gray(0.0, 1.0)
    else if hexLength == 8 then
      ChannelsOf(ScanHexInt32(stripped[..5]), FromDecimalText(stripped[|stripped| - 2..]))
    else
      ChannelsOf(ScanHexInt32(stripped), Fixed(100.0 / 100.0))
  }

  /** Two hex digits as a byte. */
  function HexByte(hi: char, lo: char): (b: nat)
    requires IsHexDigit(hi) && IsHexDigit(lo)
    ensures b < 256
  {
    16 * HexDigitValue(hi) + HexDigitValue(lo)
  }

  /** Uppercasing hex digits keeps them hex digits of the same value. */
  lemma UpperAllHex(s: string)
    requires AllHex(s)
    ensures AllHex(Strings.ToUpper(s))
    ensures forall i :: 0 <= i < |s| ==> HexDigitValue(Strings.ToUpper(s)[i]) == HexDigitValue(s[i])
  {
  }

  /** The value of six hex digits, byte by byte. */
  lemma HexValueSix(s: string)
    requires |s| == 6 && AllHex(s)
    ensures HexValue(s) == (HexByte(s[0], s[1]) * 256 + HexByte(s[2], s[3])) * 256 + HexByte(s[4], s[5])
  {
    var red, green, blue := HexByte(s[0], s[1]), HexByte(s[2], s[3]), HexByte(s[4], s[5]);
    assert s[..1][..0] == [];
    assert HexValue(s[..1]) == HexDigitValue(s[0]);
    assert s[..2][..1] == s[..1];
    assert HexValue(s[..2]) == red;
    assert s[..3][..2] == s[..2];
    assert HexValue(s[..3]) == red * 16 + HexDigitValue(s[2]);
    assert s[..4][..3] == s[..3];
    assert HexValue(s[..4]) == red * 256 + green;
    assert s[..5][..4] == s[..4];
    assert HexValue(s[..5]) == (red * 256 + green) * 16 + HexDigitValue(s[4]);
    assert s[..6] == s;
  }

  lemma DivMod65536(q: int, r: int)
    requires q >= 0 && 0 <= r < 0x1_0000
    ensures (q * 0x1_0000 + r) / 0x1_0000 == q
  {
  }

  /** Unpacking a value packed from three bytes gives back the bytes. */
  lemma UnpackBytes(r: nat, g: nat, b: nat)
    requires r < 256 && g < 256 && b < 256
    ensures ((r * 256 + g) * 256 + b) % 0x100 == b
    ensures (((r * 256 + g) * 256 + b) / 0x100) % 0x100 == g
    ensures (((r * 256 + g) * 256 + b) / 0x1_0000) % 0x100 == r
  {
    var v := (r * 256 + g) * 256 + b;
    Strings.DivModByte(r * 256 + g, b);
    Strings.DivModByte(r, g);
    assert v == r * 0x1_0000 + (g * 256 + b);
    DivMod65536(r, g * 256 + b);
  }

  /** The channels of a value packed from three bytes are the bytes over 255. */
  lemma ChannelBytes(r: nat, g: nat, b: nat, alpha: Alpha)
    requires r < 256 && g < 256 && b < 256
    ensures ChannelsOf((r * 256 + g) * 256 + b, alpha)
            == Rgb(r as real / 255.0, g as real / 255.0, b as real / 255.0, alpha)
  {
    UnpackBytes(r, g, b);
  }

  /** Six hex digits without '#': the scan of their uppercase form, alpha 100/100. */
  lemma ParsePlainSix(s: string)
    requires |s| == 6 && IsHexDigit(s[0])
    ensures ParseHexString(s) == ChannelsOf(ScanHexInt32(Strings.ToUpper(s)), Fixed(1.0))
  {
    UpperHash(s);
  }

  /** Scanning the uppercase form of six hex digits reads their three bytes. */
  lemma ScanUpperSix(s: string)
    requires |s| == 6 && AllHex(s)
    ensures ScanHexInt32(Strings.ToUpper(s))
            == (HexByte(s[0], s[1]) * 256 + HexByte(s[2], s[3])) * 256 + HexByte(s[4], s[5])
  {
    var u := Strings.ToUpper(s);
    UpperAllHex(s);
    ScanAllHex(u);
    HexValueSix(u);
  }

  /** Six hex digits, in either case, give red, green and blue from their three
      bytes over 255 and alpha 100/100. */
  lemma ParseSixHexDigits(s: string)
    requires |s| == 6 && AllHex(s)
    ensures ParseHexString(s)
            == Rgb(HexByte(s[0], s[1]) as real / 255.0, HexByte(s[2], s[3]) as real / 255.0,
                   HexByte(s[4], s[5]) as real / 255.0, Fixed(1.0))
  {
    ParsePlainSix(s);
    ScanUpperSix(s);
    ChannelBytes(HexByte(s[0], s[1]), HexByte(s[2], s[3]), HexByte(s[4], s[5]), Fixed(1.0));
  }

  lemma UpperDoubleEach(s: string)
    ensures Strings.ToUpper(DoubleEach(s)) == DoubleEach(Strings.ToUpper(s))
  {
  }

  lemma DoubleEachAllHex(s: string)
    requires AllHex(s)
    ensures AllHex(DoubleEach(s))
  {
  }

  /** Three digits without '#': the scan of their uppercase form doubled. */
  lemma ShorthandPlain(s: string)
    requires |s| == 3 && IsHexDigit(s[0])
    ensures ParseHexString(s) == ChannelsOf(ScanHexInt32(DoubleEach(Strings.ToUpper(s))), Fixed(1.0))
  {
    UpperHash(s);
  }

  /** Three digits after '#': the same scan. */
  lemma ShorthandHash(s: string)
    requires |s| == 3
    ensures ParseHexString("#" + s) == ChannelsOf(ScanHexInt32(DoubleEach(Strings.ToUpper(s))), Fixed(1.0))
  {
    var hu := Strings.ToUpper("#" + s);
    assert hu == "#" + Strings.ToUpper(s);
    assert Strings.HasPrefix(hu, "#");
    assert Strings.RemovedPrefix(hu, "#") == Strings.ToUpper(s);
  }

  /** The shorthand forms "RGB" and "#RGB" parse like "RRGGBB". */
  lemma ShorthandDoubles(s: string)
    requires |s| == 3 && AllHex(s)
    ensures ParseHexString(s) == ParseHexString(DoubleEach(s))
    ensures ParseHexString("#" + s) == ParseHexString(DoubleEach(s))
  {
    ShorthandPlain(s);
    ShorthandHash(s);
    DoubleEachAllHex(s);
    ParsePlainSix(DoubleEach(s));
    UpperDoubleEach(s);
  }

  // ------------------------------------------------------------ formatting partner

  function HexDigitChar(v: nat): (c: char)
    requires v < 16
    ensures IsHexDigit(c) && HexDigitValue(c) == v
  {
    if v < 10 then ('0' as int + v) as char else ('A' as int + v - 10) as char
  }

  /** A byte as two uppercase hex digits ("%02X"). */
  function FormatByte(b: nat): (s: string)
    requires b < 256
    ensures |s| == 2 && AllHex(s) && HexByte(s[0], s[1]) == b
  {
    [HexDigitChar(b / 16), HexDigitChar(b % 16)]
  }

  /** Formatting three bytes as "RRGGBB" and parsing the result gives each byte over 255. */
  lemma FormatThenParse(r: nat, g: nat, b: nat)
    requires r < 256 && g < 256 && b < 256
    ensures ParseHexString(FormatByte(r) + FormatByte(g) + FormatByte(b))
            == Rgb(r as real / 255.0, g as real / 255.0, b as real / 255.0, Fixed(1.0))
  {
    var s := FormatByte(r) + FormatByte(g) + FormatByte(b);
    assert s[0..2] == FormatByte(r) && s[2..4] == FormatByte(g) && s[4..6] == FormatByte(b);
    ParseSixHexDigits(s);
  }

  // ------------------------------------------------------------ as intended

  /** `init(hexString:)` as its comments describe it: the length is taken after a
      leading '#' is removed, so "#RRGGBB" and "#RRGGBBAA" are accepted; the
      shorthands "RGB" and "RGBA" are doubled into the six- and eight-digit forms
      and then read as those; and the eight-digit form reads red, green and blue
      from its first SIX digits. */
  function ParseHexStringIntended(hexString: string): (c: ParsedColor)
    ensures !AcceptedLength(DigitsLength(hexString)) ==> c == Gray(0.0, 1.0)
    ensures AcceptedLength(DigitsLength(hexString)) ==> c.Rgb? && InUnit(c.red) && InUnit(c.green) && InUnit(c.blue)
    ensures DigitsLength(hexString) == 3 || DigitsLength(hexString) == 6 ==> c.alpha == Fixed(1.0)
  {
    UpperHash(hexString);
    var hex := Strings.ToUpper(hexString);
    var stripped := if Strings.HasPrefix(hex, "#") then Strings.RemovedPrefix(hex, "#") else hex;
    var expanded := if |stripped| == 3 || |stripped| == 4 then DoubleEach(stripped) else stripped;
    if |expanded| == 6 then
      ChannelsOf(ScanHexInt32(expanded), Fixed(1.0))
    else if |expanded| == 8 then
      ChannelsOf(ScanHexInt32(expanded[..6]), FromDecimalText(expanded[6..]))
    else
      Gray(0.0, 1.0)
  }

  /** With the intended reading, "#RRGGBB" and "RRGGBB" give the same colour, the
      one the code as written gives for "RRGGBB"; the code as written rejects "#RRGGBB". */
  lemma IntendedAcceptsHashSix(s: string)
    requires |s| == 6 && AllHex(s)
    ensures ParseHexString("#" + s) == Gray(0.0, 1.0)
    ensures ParseHexStringIntended("#" + s) == ParseHexStringIntended(s) == ParseHexString(s)
  {
    var u := Strings.ToUpper(s);
    UpperHash(s);
    var hu := Strings.ToUpper("#" + s);
    assert hu == "#" + u;
    assert Strings.RemovedPrefix(hu, "#") == u;
    ParsePlainSix(s);
  }

  /** Eight hex digits without '#' under the intended reading: the scan of the first
      six uppercased digits, with the last two as alpha text. */
  lemma IntendedPlainEight(s: string)
    requires |s| == 8 && IsHexDigit(s[0])
    ensures ParseHexStringIntended(s)
            == ChannelsOf(ScanHexInt32(Strings.ToUpper(s)[..6]), FromDecimalText(Strings.ToUpper(s)[6..]))
  {
    UpperHash(s);
  }

  /** The channels of the first six of a run of hex digits are their bytes over 255. */
  lemma ChannelsOfFirstSix(u: string, alpha: Alpha)
    requires |u| >= 6 && AllHex(u)
    ensures ChannelsOf(ScanHexInt32(u[..6]), alpha)
            == Rgb(HexByte(u[0], u[1]) as real / 255.0, HexByte(u[2], u[3]) as real / 255.0,
                   HexByte(u[4], u[5]) as real / 255.0, alpha)
  {
    var six := u[..6];
    assert AllHex(six);
    ScanAllHex(six);
    HexValueSix(six);
    ChannelBytes(HexByte(six[0], six[1]), HexByte(six[2], six[3]), HexByte(six[4], six[5]), alpha);
  }

  /** With the intended reading, eight hex digits give red, green and blue from the
      first six and the alpha text from the last two. */
  lemma IntendedEightDigits(s: string)
    requires |s| == 8 && AllHex(s)
    ensures ParseHexStringIntended(s)
            == Rgb(HexByte(s[0], s[1]) as real / 255.0, HexByte(s[2], s[3]) as real / 255.0,
                   HexByte(s[4], s[5]) as real / 255.0, FromDecimalText(Strings.ToUpper(s)[6..]))
  {
    IntendedPlainEight(s);
    UpperAllHex(s);
    ChannelsOfFirstSix(Strings.ToUpper(s), FromDecimalText(Strings.ToUpper(s)[6..]));
  }

  /** With the intended reading, "RGBA" reads like "RRGGBBAA". */
  lemma IntendedShorthandFour(s: string)
    requires |s| == 4 && AllHex(s)
    ensures ParseHexStringIntended(s) == ParseHexStringIntended(DoubleEach(s))
  {
    var u := Strings.ToUpper(s);
    UpperHash(s);
    var d := DoubleEach(s);
    DoubleEachAllHex(s);
    UpperHash(d);
    UpperDoubleEach(s);
    assert ParseHexStringIntended(d) == ChannelsOf(ScanHexInt32(DoubleEach(u)[..6]), FromDecimalText(DoubleEach(u)[6..]));
  }

  lemma ParseEightPlain(s: string)
    requires |s| == 8 && IsHexDigit(s[0])
    ensures ParseHexString(s)
            == ChannelsOf(ScanHexInt32(Strings.ToUpper(s)[..5]), FromDecimalText(Strings.ToUpper(s)[6..]))
  {
    UpperHash(s);
  }

  lemma HexValueFF000()
    ensures AllHex("FF000") && HexValue("FF000") == 0xFF000
  {
    assert HexValue("F") == 15 by {
      assert "F"[..0] == [];
    }
    assert HexValue("FF") == 0xFF by {
      assert "FF"[..1] == "F";
    }
    assert HexValue("FF0") == 0xFF0 by {
      assert "FF0"[..2] == "FF";
    }
    assert HexValue("FF00") == 0xFF00 by {
      assert "FF00"[..3] == "FF0";
    }
    assert "FF000"[..4] == "FF00";
  }

  /** "FF000000" (opaque-looking red) scans only "FF000" as written, giving red
      0x0F and green 0xF0. */
  lemma EightDigitSliceCounterexample()
    ensures ParseHexString("FF000000") == Rgb(15.0 / 255.0, 240.0 / 255.0, 0.0, FromDecimalText("00"))
  {
    ParseFF000000();
    ScanFF000();
    ChannelsFF000();
  }

  lemma ParseFF000000()
    ensures ParseHexString("FF000000") == ChannelsOf(ScanHexInt32("FF000"), FromDecimalText("00"))
  {
    var s := "FF000000";
    assert Strings.ToUpper(s) == s;
    assert s[..5] == "FF000" && s[6..] == "00";
    ParseEightPlain(s);
  }

  lemma ScanFF000()
    ensures ScanHexInt32("FF000") == 0xFF000
  {
    HexValueFF000();
    ScanAllHex("FF000");
  }

  lemma ChannelsFF000()
    ensures ChannelsOf(0xFF000, FromDecimalText("00")) == Rgb(15.0 / 255.0, 240.0 / 255.0, 0.0, FromDecimalText("00"))
  {
    ChannelBytes(0x0F, 0xF0, 0x00, FromDecimalText("00"));
  }

  /** Under the intended reading "FF0000" followed by two uppercase hex digits is
      pure red, with those two digits as the alpha text. */
  lemma IntendedRedWithAlpha(a0: char, a1: char)
    requires IsHexDigit(a0) && IsHexDigit(a1) && Strings.ToUpperChar(a0) == a0 && Strings.ToUpperChar(a1) == a1
    ensures ParseHexStringIntended("FF0000" + [a0, a1]) == Rgb(1.0, 0.0, 0.0, FromDecimalText([a0, a1]))
  {
    var s := "FF0000" + [a0, a1];
    assert Strings.ToUpper(s) == s;
    assert s[6..] == [a0, a1];
    assert AllHex(s);
    IntendedEightDigits(s);
    assert HexByte('F', 'F') == 255 && HexByte('0', '0') == 0;
  }

  /** The intended reading gives "FF000000" red 0xFF and no green or blue. */
  lemma EightDigitIntendedRed()
    ensures ParseHexStringIntended("FF000000") == Rgb(1.0, 0.0, 0.0, FromDecimalText("00"))
  {
    IntendedRedWithAlpha('0', '0');
    assert "FF0000" + ['0', '0'] == "FF000000";
  }

  lemma HexValueFF0000FF()
    ensures AllHex("FF0000FF") && HexValue("FF0000FF") == 0xFF0000FF
  {
    assert HexValue("F") == 15 by {
      assert "F"[..0] == [];
    }
    assert HexValue("FF") == 0xFF by {
      assert "FF"[..1] == "F";
    }
    assert HexValue("FF0") == 0xFF0 by {
      assert "FF0"[..2] == "FF";
    }
    assert HexValue("FF00") == 0xFF00 by {
      assert "FF00"[..3] == "FF0";
    }
    assert HexValue("FF000") == 0xFF000 by {
      assert "FF000"[..4] == "FF00";
    }
    assert HexValue("FF0000") == 0xFF0000 by {
      assert "FF0000"[..5] == "FF000";
    }
    assert HexValue("FF0000F") == 0xFF0000F by {
      assert "FF0000F"[..6] == "FF0000";
    }
    assert "FF0000FF"[..7] == "FF0000F";
  }

  lemma ParseF00F()
    ensures ParseHexString("F00F") == ChannelsOf(ScanHexInt32("FF0000FF"), Fixed(1.0))
  {
    var s := "F00F";
    UpperHash(s);
    assert Strings.ToUpper(s) == s;
    DoubleF00F();
  }

  lemma ScanFF0000FF()
    ensures ScanHexInt32("FF0000FF") == 0xFF0000FF
  {
    HexValueFF0000FF();
    ScanAllHex("FF0000FF");
  }

  lemma ChannelsFF0000FF()
    ensures ChannelsOf(0xFF0000FF, Fixed(1.0)) == Rgb(0.0, 0.0, 1.0, Fixed(1.0))
  {
    assert (0xFF0000FF / 0x1_0000) % 0x100 == 0;
    assert (0xFF0000FF / 0x100) % 0x100 == 0;
    assert 0xFF0000FF % 0x100 == 0xFF;
  }

  /** The shorthand "F00F" (red, alpha digit F) is doubled to "FF0000FF" but all
      eight digits are scanned, so the channels shift by one byte and the colour
      comes out blue. */
  lemma FourDigitShorthandCounterexample()
    ensures ParseHexString("F00F") == Rgb(0.0, 0.0, 1.0, Fixed(1.0))
  {
    ParseF00F();
    ScanFF0000FF();
    ChannelsFF0000FF();
  }

  lemma DoubleF00F()
    ensures AllHex("F00F") && DoubleEach("F00F") == "FF0000FF"
  {
    var d := DoubleEach("F00F");
    assert d[0] == 'F' && d[1] == 'F' && d[2] == '0' && d[3] == '0';
    assert d[4] == '0' && d[5] == '0' && d[6] == 'F' && d[7] == 'F';
  }

  lemma IntendedF00FDoubles()
    ensures ParseHexStringIntended("F00F") == ParseHexStringIntended("FF0000FF")
  {
    DoubleF00F();
    IntendedShorthandFour("F00F");
  }

  /** The intended reading gives "F00F" red 0xFF and the alpha text "FF". */
  lemma FourDigitIntendedRed()
    ensures ParseHexStringIntended("F00F") == Rgb(1.0, 0.0, 0.0, FromDecimalText("FF"))
  {
    IntendedF00FDoubles();
    IntendedRedWithAlpha('F', 'F');
    assert "FF0000" + ['F', 'F'] == "FF0000FF";
  }

  // ------------------------------------------------------------ brightness

  datatype Rgba = Rgba(r: real, g: real, b: real, a: real)

  /** `brightness`: the channels scaled to 0..255, weighted 299/587/114 and
      divided by 255000. */
  function Brightness(c: Rgba): (v: real)
    ensures v == (299.0 * c.r + 587.0 * c.g + 114.0 * c.b) / 1000.0
    ensures InUnit(c.r) && InUnit(c.g) && InUnit(c.b) ==> InUnit(v)
  {
    (c.r * 255.0 * 299.0 + c.g * 255.0 * 587.0 + c.b * 255.0 * 114.0) / 255000.0
  }

  predicate IsBright(c: Rgba) {
    Brightness(c) >= 0.5
  }

  function IsDark(c: Rgba): (dark: bool)
    ensures dark <==> Brightness(c) < 0.5
  {
    !IsBright(c)
  }

  /** White is bright and black is dark, whatever the alpha. */
  lemma WhiteBrightBlackDark(alpha: real)
    ensures Brightness(Rgba(1.0, 1.0, 1.0, alpha)) == 1.0 && IsBright(Rgba(1.0, 1.0, 1.0, alpha))
    ensures Brightness(Rgba(0.0, 0.0, 0.0, alpha)) == 0.0 && IsDark(Rgba(0.0, 0.0, 0.0, alpha))
  {
  }

  // ------------------------------------------------------------ inverse

  /** `inverse` on the colour's components: every component but the last (alpha)
      becomes `1 - c`; a colour with a single component is returned unchanged.
      A colour always has at least one component. */
  function Inverse(components: seq<real>): (r: seq<real>)
    requires |components| >= 1
    ensures |r| == |components|
    ensures r[|r| - 1] == components[|components| - 1]
    ensures forall i :: 0 <= i < |r| - 1 ==> r[i] == 1.0 - components[i]
    ensures (forall i :: 0 <= i < |components| ==> InUnit(components[i])) ==> forall i :: 0 <= i < |r| ==> InUnit(r[i])
  {
    if |components| == 1 then components
    else
      seq(|components| - 1, i requires 0 <= i < |components| - 1 => 1.0 - components[i])
      + [components[|components| - 1]]
  }

  /** Inverting twice gives the original components. */
  lemma InverseInvolution(components: seq<real>)
    requires |components| >= 1
    ensures Inverse(Inverse(components)) == components
  {
  }

  // ------------------------------------------------------------ lighter

  /** `min(x + 0.1, 1.0)`. */
  function Lighten(x: real): real {
    if 1.0 < x + 0.1 then 1.0 else x + 0.1
  }

  /** `lighter()`: red, green and blue each raised by 0.1 and capped at 1.0; alpha kept. */
  function Lighter(c: Rgba): (r: Rgba)
    ensures r.a == c.a
    ensures r.r <= 1.0 && r.r <= c.r + 0.1 && (r.r == 1.0 || r.r == c.r + 0.1)
    ensures r.g <= 1.0 && r.g <= c.g + 0.1 && (r.g == 1.0 || r.g == c.g + 0.1)
    ensures r.b <= 1.0 && r.b <= c.b + 0.1 && (r.b == 1.0 || r.b == c.b + 0.1)
    ensures InUnit(c.r) ==> c.r <= r.r
    ensures InUnit(c.g) ==> c.g <= r.g
    ensures InUnit(c.b) ==> c.b <= r.b
  {
    Rgba(Lighten(c.r), Lighten(c.g), Lighten(c.b), c.a)
  }

  function LighterTimes(c: Rgba, n: nat): Rgba {
    if n == 0 then c else Lighter(LighterTimes(c, n - 1))
  }

  function LightenTimes(x: real, n: nat): real {
    if n == 0 then x else Lighten(LightenTimes(x, n - 1))
  }

  lemma {:induction false} LighterTimesChannels(c: Rgba, n: nat)
    ensures LighterTimes(c, n) == Rgba(LightenTimes(c.r, n), LightenTimes(c.g, n), LightenTimes(c.b, n), c.a)
  {
    if n > 0 {
      LighterTimesChannels(c, n - 1);
    }
  }

  lemma {:induction false} LightenTimesBound(x: real, n: nat)
    requires 0.0 <= x <= 1.0
    ensures LightenTimes(x, n) <= 1.0
    ensures LightenTimes(x, n) >= 1.0 || LightenTimes(x, n) >= x + 0.1 * n as real
  {
    if n > 0 {
      LightenTimesBound(x, n - 1);
    }
  }

  /** Ten `lighter()` steps turn any colour with channels in [0, 1] into white of the same alpha. */
  lemma TenTimesLighterIsWhite(c: Rgba)
    requires InUnit(c.r) && InUnit(c.g) && InUnit(c.b)
    ensures LighterTimes(c, 10) == Rgba(1.0, 1.0, 1.0, c.a)
  {
    LighterTimesChannels(c, 10);
    LightenTimesBound(c.r, 10);
    LightenTimesBound(c.g, 10);
    LightenTimesBound(c.b, 10);
  }
}

=== FILE: keyboard.dfy ===
/** The hot-key registry of AppKit/Keyboard.swift: key-combo identity, the
    app-level binding map, the three global-binding maps and the hot-key ID
    counter, and the registry of keyboards by four-char signature.

    The Carbon calls are not modelled: `RegisterEventHotKey` becomes an input
    `Option<HotKeyRef>` (None when no hot-key reference came back),
    `UnregisterEventHotKey` becomes the reference a function hands back to be
    unregistered, and a bound closure is an opaque `Action`. Swift dictionaries
    keyed by `KeyCombo` find keys by hash and `==`, and `==` on combos is hash
    equality, so here every such map is keyed by the combo's hash. */
module Keyboard {
  import opened Wrappers
  import Strings

  type UInt16 = x: int | 0 <= x < 0x1_0000
  const UInt32Max: int := 0xFFFF_FFFF

  /** Bits of `NSEventModifierFlags`: the four modifiers a combo is identified by,
      and any other bit (caps lock, function, device-dependent bits …) that a
      system event may carry. */
  datatype Modifier = Command | Control | Option | Shift | Other(bit: nat)

  datatype KeyCombo = KeyCombo(keyCode: UInt16, modifierFlags: set<Modifier>)

  /** A key event as far as `toKeyCombo()` reads it. */
  datatype Event = Event(keyCode: UInt16, modifierFlags: set<Modifier>)

  /** An opaque Carbon `EventHotKeyRef`. */
  type HotKeyRef = nat

  /** An opaque bound closure (`KeyComboAction`). */
  type Action = nat

  // ------------------------------------------------------------ key combos

  predicate HasModifiers(c: KeyCombo) { c.modifierFlags != {} }
  predicate IsCommandPressed(c: KeyCombo) { Command in c.modifierFlags }
  predicate IsCtrlPressed(c: KeyCombo) { Control in c.modifierFlags }
  predicate IsAltPressed(c: KeyCombo) { Option in c.modifierFlags }
  predicate IsShiftPressed(c: KeyCombo) { Shift in c.modifierFlags }

  function ToKeyCombo(e: Event): KeyCombo {
    KeyCombo(e.keyCode, e.modifierFlags)
  }

  /** Carbon's modifier masks (`cmdKey`, `shiftKey`, `optionKey`, `controlKey`). */
  const CmdKey: nat := 0x100
  const ShiftKey: nat := 0x200
  const OptionKey: nat := 0x800
  const ControlKey: nat := 0x1000

  /** `carbonModifierFlags`: the Carbon mask of each pressed modifier, or-ed together. */
  function CarbonModifierFlags(c: KeyCombo): (flags: nat)
    ensures (flags / ControlKey) % 2 == 1 <==> IsCtrlPressed(c)
    ensures (flags / CmdKey) % 2 == 1 <==> IsCommandPressed(c)
    ensures (flags / ShiftKey) % 2 == 1 <==> IsShiftPressed(c)
    ensures (flags / OptionKey) % 2 == 1 <==> IsAltPressed(c)
    ensures flags == 0 <==> !IsCtrlPressed(c) && !IsCommandPressed(c) && !IsShiftPressed(c) && !IsAltPressed(c)
    ensures flags != 0 ==> HasModifiers(c)
    ensures flags < 0x2000
  {
    (if IsCtrlPressed(c) then ControlKey else 0)
    + (if IsCommandPressed(c) then CmdKey else 0)
    + (if IsShiftPressed(c) then ShiftKey else 0)
    + (if IsAltPressed(c) then OptionKey else 0)
  }

  /** Without any extra bit in the event flags, a combo has modifiers exactly when
      its Carbon mask is non-zero. */
  lemma HasModifiersIffCarbonFlags(c: KeyCombo)
    requires forall m :: m in c.modifierFlags ==> !m.Other?
    ensures HasModifiers(c) <==> CarbonModifierFlags(c) != 0
  {
    if HasModifiers(c) {
      var m :| m in c.modifierFlags;
    }
  }

  /** The four modifier flags as a number 0..15 (command, control, option, shift). */
  function ModifierBits(c: KeyCombo): nat {
    (if IsCommandPressed(c) then 1 else 0) + (if IsCtrlPressed(c) then 2 else 0)
    + (if IsAltPressed(c) then 4 else 0) + (if IsShiftPressed(c) then 8 else 0)
  }

  /** The precomputed hash: the key code plus `2 << 17`, `2 << 18`, `2 << 19` and
      `2 << 20` for command, control, option and shift. */
  function Hash(c: KeyCombo): (h: nat)
    ensures h == c.keyCode + 0x4_0000 * ModifierBits(c)
    ensures h < 0x40_0000
  {
    c.keyCode
    + (if IsCommandPressed(c) then 2 * 0x2_0000 else 0)
    + (if IsCtrlPressed(c) then 2 * 0x4_0000 else 0)
    + (if IsAltPressed(c) then 2 * 0x8_0000 else 0)
    + (if IsShiftPressed(c) then 2 * 0x10_0000 else 0)
  }

  /** `==` on combos compares the precomputed hashes. */
  predicate ComboEquals(a: KeyCombo, b: KeyCombo) {
    Hash(a) == Hash(b)
  }

  lemma SplitHash(k: int, bits: int)
    requires 0 <= k < 0x4_0000 && 0 <= bits
    ensures (k + 0x4_0000 * bits) / 0x4_0000 == bits && (k + 0x4_0000 * bits) % 0x4_0000 == k
  {
  }

  /** Two combos are equal exactly when they share the key code and the four
      modifiers; any other flag bit is ignored. */
  lemma ComboEqualsIff(a: KeyCombo, b: KeyCombo)
    ensures ComboEquals(a, b) <==>
      && a.keyCode == b.keyCode
      && (IsCommandPressed(a) <==> IsCommandPressed(b))
      && (IsCtrlPressed(a) <==> IsCtrlPressed(b))
      && (IsAltPressed(a) <==> IsAltPressed(b))
      && (IsShiftPressed(a) <==> IsShiftPressed(b))
  {
    SplitHash(a.keyCode, ModifierBits(a));
    SplitHash(b.keyCode, ModifierBits(b));
  }

  // ------------------------------------------------------------ keyboards

  datatype GlobalHotKey = GlobalHotKey(hotKeyID: nat, hotKeyRef: HotKeyRef)

  /** An entry of `globalHotKeyIDsToKeyCombo`: the bound combo together with the
      `globalHotKey` the source stores on that combo object when it binds it. */
  datatype Registration = Registration(combo: KeyCombo, globalHotKey: GlobalHotKey)

  datatype Keyboard = Keyboard(
    hotKeySignature: nat,
    nextHotKeyID: nat,
    keyBindings: map<nat, Action>,
    globalKeyBindings: map<nat, Action>,
    globalHotKeyIDsToKeyCombo: map<nat, Registration>,
    globalKeyCombosToHotKeyID: map<nat, nat>)

  /** The invariant the bind and unbind operations keep: the ID→combo and
      combo→ID maps are mutual inverses over exactly the globally bound combos,
      every stored ID was handed out before `nextHotKeyID`, and the counter
      stays within `UInt32`. */
  ghost predicate Valid(kb: Keyboard) {
    && 1 <= kb.nextHotKeyID <= UInt32Max
    && kb.globalKeyCombosToHotKeyID.Keys == kb.globalKeyBindings.Keys
    && (forall id :: id in kb.globalHotKeyIDsToKeyCombo ==>
          var reg := kb.globalHotKeyIDsToKeyCombo[id];
          && 1 <= id < kb.nextHotKeyID
          && reg.globalHotKey.hotKeyID == id
          && Hash(reg.combo) in kb.globalKeyCombosToHotKeyID
          && kb.globalKeyCombosToHotKeyID[Hash(reg.combo)] == id)
    && (forall h :: h in kb.globalKeyCombosToHotKeyID ==>
          && kb.globalKeyCombosToHotKeyID[h] in kb.globalHotKeyIDsToKeyCombo
          && Hash(kb.globalHotKeyIDsToKeyCombo[kb.globalKeyCombosToHotKeyID[h]].combo) == h)
  }

  /** `init?(withSignature:)`: fails when a keyboard already holds the signature's
      four-char code, otherwise registers a keyboard with no bindings and hot-key
      ID 1. The code must be computable (four characters, no trap). */
  function NewKeyboard(keyboards: map<nat, Keyboard>, signature: string): (r: (Option<Keyboard>, map<nat, Keyboard>))
    requires |signature| == 4 && Strings.FourCharCode(signature).Some?
    ensures var code := Strings.FourCharCode(signature).value;
      && (code in keyboards <==> r.0.None?)
      && (r.0.None? ==> r.1 == keyboards)
      && (r.0.Some? ==>
            && Valid(r.0.value)
            && r.0.value.hotKeySignature == code
            && r.0.value.nextHotKeyID == 1
            && r.0.value.keyBindings == map[] && r.0.value.globalKeyBindings == map[]
            && r.1 == keyboards[code := r.0.value])
  {
    var code := Strings.FourCharCode(signature).value;
    if code in keyboards then (None, keyboards)
    else
      var kb := Keyboard(code, 1, map[], map[], map[], map[]);
      (Some(kb), keyboards[code := kb])
  }

  /** `sharedKeyboard` is created with signature "akey", whose code is 0x616B6579. */
  lemma SharedKeyboardCreated()
    ensures NewKeyboard(map[], "akey").0.Some?
    ensures NewKeyboard(map[], "akey").0.value.hotKeySignature == 0x616B6579
  {
  }

  // ------------------------------------------------------------ dispatch

  /** `processKeyCombo`: runs (asynchronously) and reports whether a binding equal
      to the combo exists. */
  function ProcessKeyCombo(combo: KeyCombo, bindings: map<nat, Action>): bool {
    Hash(combo) in bindings
  }

  /** `processEvent`: no event processes nothing; otherwise the event's combo is
      looked up among the app bindings. */
  function ProcessEvent(kb: Keyboard, event: Option<Event>): (r: bool)
    ensures event.None? ==> !r
    ensures event.Some? ==> (r <==> Hash(ToKeyCombo(event.value)) in kb.keyBindings)
  {
    match event
    case None => false
    case Some(e) => ProcessKeyCombo(ToKeyCombo(e), kb.keyBindings)
  }

  datatype HotKeyEventID = HotKeyEventID(signature: nat, id: nat)

  /** The Carbon event handler: finds the keyboard by signature and the combo by
      hot-key ID, then processes it against the global bindings. */
  function HandleHotKeyEvent(keyboards: map<nat, Keyboard>, event: Option<HotKeyEventID>): bool {
    match event
    case None => false
    case Some(hk) =>
      if hk.signature in keyboards && hk.id in keyboards[hk.signature].globalHotKeyIDsToKeyCombo then
        var kb := keyboards[hk.signature];
        ProcessKeyCombo(kb.globalHotKeyIDsToKeyCombo[hk.id].combo, kb.globalKeyBindings)
      else false
  }

  /** A hot-key event dispatches exactly when its ID is registered on a valid keyboard. */
  lemma HotKeyEventDispatchesRegistered(keyboards: map<nat, Keyboard>, signature: nat, id: nat)
    requires signature in keyboards && Valid(keyboards[signature])
    ensures HandleHotKeyEvent(keyboards, Some(HotKeyEventID(signature, id)))
            <==> id in keyboards[signature].globalHotKeyIDsToKeyCombo
  {
  }

  // ------------------------------------------------------------ app bindings

  /** `bindKeyCombo`: afterwards every equal combo is processed; no other binding changes. */
  function BindKeyCombo(kb: Keyboard, combo: KeyCombo, action: Action): (r: Keyboard)
    ensures Hash(combo) in r.keyBindings && r.keyBindings[Hash(combo)] == action
    ensures forall c :: ComboEquals(c, combo) ==> ProcessKeyCombo(c, r.keyBindings)
    ensures forall h :: h != Hash(combo) ==>
              (h in r.keyBindings <==> h in kb.keyBindings)
              && (h in kb.keyBindings ==> r.keyBindings[h] == kb.keyBindings[h])
    ensures r.(keyBindings := kb.keyBindings) == kb
  {
    kb.(keyBindings := kb.keyBindings[Hash(combo) := action])
  }

  /** `bindKey`: binds the key code with no modifiers. */
  function BindKey(kb: Keyboard, key: UInt16, action: Action): (r: Keyboard)
    ensures forall c: KeyCombo :: c.keyCode == key && ModifierBits(c) == 0 ==> ProcessKeyCombo(c, r.keyBindings)
    ensures Hash(KeyCombo(key, {})) in r.keyBindings && r.keyBindings[Hash(KeyCombo(key, {}))] == action
    ensures r == BindKeyCombo(kb, KeyCombo(key, {}), action)
  {
    BindKeyCombo(kb, KeyCombo(key, {}), action)
  }

  /** `unbindKeyCombo`: afterwards no equal combo is processed; no other binding changes. */
  function UnbindKeyCombo(kb: Keyboard, combo: KeyCombo): (r: Keyboard)
    ensures forall c :: ComboEquals(c, combo) ==> !ProcessKeyCombo(c, r.keyBindings)
    ensures forall h :: h != Hash(combo) ==>
              (h in r.keyBindings <==> h in kb.keyBindings)
              && (h in kb.keyBindings ==> r.keyBindings[h] == kb.keyBindings[h])
    ensures r.(keyBindings := kb.keyBindings) == kb
  {
    kb.(keyBindings := kb.keyBindings - {Hash(combo)})
  }

  /** `unbindKey`: unbinds the key code with no modifiers. */
  function UnbindKey(kb: Keyboard, key: UInt16): (r: Keyboard)
    ensures forall c: KeyCombo :: c.keyCode == key && ModifierBits(c) == 0 ==> !ProcessKeyCombo(c, r.keyBindings)
    ensures r == UnbindKeyCombo(kb, KeyCombo(key, {}))
  {
    UnbindKeyCombo(kb, KeyCombo(key, {}))
  }

  /** After binding a combo, an event for any equal combo is processed, and after
      unbinding it, no such event is. */
  lemma BoundEventIsProcessed(kb: Keyboard, combo: KeyCombo, action: Action, e: Event)
    requires ComboEquals(ToKeyCombo(e), combo)
    ensures ProcessEvent(BindKeyCombo(kb, combo, action), Some(e))
    ensures !ProcessEvent(UnbindKeyCombo(kb, combo), Some(e))
  {
  }

  /** Binding and then unbinding a combo leaves the app bindings as they were
      when the combo had no binding before. */
  lemma BindThenUnbind(kb: Keyboard, combo: KeyCombo, action: Action)
    requires Hash(combo) !in kb.keyBindings
    ensures UnbindKeyCombo(BindKeyCombo(kb, combo, action), combo) == kb
  {
    assert UnbindKeyCombo(BindKeyCombo(kb, combo, action), combo).keyBindings == kb.keyBindings;
  }

  // ------------------------------------------------------------ global bindings

  /** `bindGlobalKeyCombo`. An already bound combo changes nothing. Otherwise the
      attempt consumes `nextHotKeyID` whether or not Carbon hands back a hot-key
      reference, and only a reference records the binding under that ID. Every
      path returns true. Advancing the `UInt32` counter past its maximum traps. */
  function BindGlobalKeyCombo(kb: Keyboard, combo: KeyCombo, action: Action, carbonHotKey: Option<HotKeyRef>): (r: (Keyboard, bool))
    requires Valid(kb)
    requires Hash(combo) !in kb.globalKeyBindings ==> kb.nextHotKeyID < UInt32Max
    ensures Valid(r.0)
    ensures r.1
    ensures r.0.keyBindings == kb.keyBindings && r.0.hotKeySignature == kb.hotKeySignature
    ensures Hash(combo) in kb.globalKeyBindings ==> r.0 == kb
    ensures Hash(combo) !in kb.globalKeyBindings ==>
      && kb.nextHotKeyID !in kb.globalHotKeyIDsToKeyCombo
      && r.0.nextHotKeyID == kb.nextHotKeyID + 1
    ensures Hash(combo) !in kb.globalKeyBindings && carbonHotKey.None? ==>
      r.0 == kb.(nextHotKeyID := kb.nextHotKeyID + 1)
    ensures Hash(combo) !in kb.globalKeyBindings && carbonHotKey.Some? ==>
      && ProcessKeyCombo(combo, r.0.globalKeyBindings)
      && r.0.globalKeyBindings[Hash(combo)] == action
      && r.0.globalKeyCombosToHotKeyID[Hash(combo)] == kb.nextHotKeyID
      && r.0.globalHotKeyIDsToKeyCombo[kb.nextHotKeyID]
           == Registration(combo, GlobalHotKey(kb.nextHotKeyID, carbonHotKey.value))
      && (forall h :: h in kb.globalKeyBindings ==>
            h in r.0.globalKeyBindings && r.0.globalKeyBindings[h] == kb.globalKeyBindings[h])
  {
    if Hash(combo) in kb.globalKeyBindings then (kb, true)
    else
      var id := kb.nextHotKeyID;
      var advanced := kb.(nextHotKeyID := id + 1);
      match carbonHotKey
      case None => (advanced, true)
      case Some(ref) =>
        var h := Hash(combo);
        (advanced.(
           globalKeyBindings := kb.globalKeyBindings[h := action],
           globalHotKeyIDsToKeyCombo := kb.globalHotKeyIDsToKeyCombo[id := Registration(combo, GlobalHotKey(id, ref))],
           globalKeyCombosToHotKeyID := kb.globalKeyCombosToHotKeyID[h := id]),
         true)
  }

  /** Under the invariant, both lookups `unbindGlobalKeyCombo` makes for a bound
      combo succeed, so its force-unwrap never fails. */
  lemma UnbindGlobalLookupsSucceed(kb: Keyboard, combo: KeyCombo)
    requires Valid(kb) && Hash(combo) in kb.globalKeyBindings
    ensures Hash(combo) in kb.globalKeyCombosToHotKeyID
    ensures kb.globalKeyCombosToHotKeyID[Hash(combo)] in kb.globalHotKeyIDsToKeyCombo
  {
  }

  /** `unbindGlobalKeyCombo`. An unbound combo is a no-op. Otherwise the combo's
      ID is looked up, both inverse entries and the binding are removed, and the
      hot-key reference stored at bind time is handed back to be unregistered. */
  function UnbindGlobalKeyCombo(kb: Keyboard, combo: KeyCombo): (r: (Keyboard, Option<HotKeyRef>))
    requires Valid(kb)
    ensures Valid(r.0)
    ensures r.0.keyBindings == kb.keyBindings && r.0.nextHotKeyID == kb.nextHotKeyID
    ensures r.0.hotKeySignature == kb.hotKeySignature
    ensures Hash(combo) !in kb.globalKeyBindings ==> r == (kb, None)
    ensures Hash(combo) in kb.globalKeyBindings ==>
      && !ProcessKeyCombo(combo, r.0.globalKeyBindings)
      && r.1 == Some(kb.globalHotKeyIDsToKeyCombo[kb.globalKeyCombosToHotKeyID[Hash(combo)]].globalHotKey.hotKeyRef)
      && r.0.globalKeyBindings.Keys == kb.globalKeyBindings.Keys - {Hash(combo)}
      && (forall h :: h in r.0.globalKeyBindings ==> r.0.globalKeyBindings[h] == kb.globalKeyBindings[h])
  {
    var h := Hash(combo);
    if h !in kb.globalKeyBindings then (kb, None)
    else
      // The `if let` at the lookup always succeeds under the invariant.
      var id := kb.globalKeyCombosToHotKeyID[h];
      var actual := kb.globalHotKeyIDsToKeyCombo[id];
      var kb' := kb.(
        globalHotKeyIDsToKeyCombo := kb.globalHotKeyIDsToKeyCombo - {id},
        globalKeyCombosToHotKeyID := kb.globalKeyCombosToHotKeyID - {h},
        globalKeyBindings := kb.globalKeyBindings - {h});
      (kb', Some(actual.globalHotKey.hotKeyRef))
  }

  /** A successful global bind is undone by the matching unbind, which hands back
      the reference that was registered; only the consumed hot-key ID remains. */
  lemma {:induction false} BindGlobalThenUnbind(kb: Keyboard, combo: KeyCombo, action: Action, ref: HotKeyRef)
    requires Valid(kb) && Hash(combo) !in kb.globalKeyBindings && kb.nextHotKeyID < UInt32Max
    ensures var bound := BindGlobalKeyCombo(kb, combo, action, Some(ref)).0;
      var (unbound, released) := UnbindGlobalKeyCombo(bound, combo);
      && released == Some(ref)
      && unbound == kb.(nextHotKeyID := kb.nextHotKeyID + 1)
  {
    var id := kb.nextHotKeyID;
    var h := Hash(combo);
    assert h !in kb.globalKeyCombosToHotKeyID;
    assert id !in kb.globalHotKeyIDsToKeyCombo;
    var bound := kb.(
      nextHotKeyID := id + 1,
      globalKeyBindings := kb.globalKeyBindings[h := action],
      globalHotKeyIDsToKeyCombo := kb.globalHotKeyIDsToKeyCombo[id := Registration(combo, GlobalHotKey(id, ref))],
      globalKeyCombosToHotKeyID := kb.globalKeyCombosToHotKeyID[h := id]);
    assert BindGlobalKeyCombo(kb, combo, action, Some(ref)).0 == bound;
    RemoveFresh(kb.globalKeyBindings, h, action);
    RemoveFresh(kb.globalHotKeyIDsToKeyCombo, id, Registration(combo, GlobalHotKey(id, ref)));
    RemoveFresh(kb.globalKeyCombosToHotKeyID, h, id);
    assert UnbindGlobalKeyCombo(bound, combo) == (kb.(nextHotKeyID := id + 1), Some(ref));
  }

  /** Removing a key just added to a map that lacked it gives the map back. */
  lemma RemoveFresh<K, V>(m: map<K, V>, k: K, v: V)
    requires k !in m
    ensures m[k := v] - {k} == m
  {
  }

  /** After a successful global bind, the hot-key event carrying the new ID is
      dispatched once the keyboard is registered under its signature. */
  lemma BoundHotKeyEventDispatches(keyboards: map<nat, Keyboard>, kb: Keyboard, combo: KeyCombo, action: Action, ref: HotKeyRef)
    requires Valid(kb) && Hash(combo) !in kb.globalKeyBindings && kb.nextHotKeyID < UInt32Max
    ensures var bound := BindGlobalKeyCombo(kb, combo, action, Some(ref)).0;
      HandleHotKeyEvent(keyboards[kb.hotKeySignature := bound], Some(HotKeyEventID(kb.hotKeySignature, kb.nextHotKeyID)))
  {
    var bound := BindGlobalKeyCombo(kb, combo, action, Some(ref)).0;
    HotKeyEventDispatchesRegistered(keyboards[kb.hotKeySignature := bound], kb.hotKeySignature, kb.nextHotKeyID);
  }
}

=== FILE: strings.dfy ===
/** AspirinKit's `String` extension (Foundation/String.swift): four-char-code
    packing, trimming, prefix and suffix removal, substring search and English
    pluralisation, over `string` (= `seq<char>`).

    Swift compares and counts `Character`s (grapheme clusters) and Foundation's
    default search uses canonical equivalence; here every Unicode scalar is one
    character and matching is literal. Upper- and lowercasing are ASCII-only. */
module Strings {
  import opened Wrappers

  // ------------------------------------------------------------ characters

  /** Members of Foundation's `CharacterSet.whitespaces`: Unicode category Zs and the tab. */
  predicate IsWhitespace(c: char) {
    || c == ' ' || c == '\t' || c == '\U{A0}' || c == '\U{1680}'
    || ('\U{2000}' <= c <= '\U{200A}')
    || c == '\U{202F}' || c == '\U{205F}' || c == '\U{3000}'
  }

  /** Members of `CharacterSet.whitespacesAndNewlines`: whitespace plus LF, VT, FF, CR, NEL, LS and PS. */
  predicate IsWhitespaceOrNewline(c: char) {
    IsWhitespace(c) || ('\n' <= c <= '\r') || c == '\U{85}' || c == '\U{2028}' || c == '\U{2029}'
  }

  function ToUpperChar(c: char): char {
    if 'a' <= c <= 'z' then (c as int - 32) as char else c
  }

  function ToLowerChar(c: char): char {
    if 'A' <= c <= 'Z' then (c as int + 32) as char else c
  }

  function ToUpper(s: string): string {
    seq(|s|, i requires 0 <= i < |s| => ToUpperChar(s[i]))
  }

  // ------------------------------------------------------------ fourCharCode

  const FourCharCodeLimit: int := 0x1_0000_0000

  /** The UTF-16 code units of `s`: scalars above U+FFFF become a surrogate pair. */
  function Utf16Units(s: string): (units: seq<int>)
    ensures |units| >= |s|
    ensures forall i :: 0 <= i < |units| ==> 0 <= units[i] < 0x10000
  {
    if s == [] then []
    else
      var c := s[0] as int;
      (if c < 0x10000 then [c] else [0xD800 + (c - 0x10000) / 0x400, 0xDC00 + (c - 0x10000) % 0x400])
      + Utf16Units(s[1..])
  }

  /** The loop of `fourCharCode` from accumulator `acc`: `result = (result << 8) + unit`
      on a `UInt32`, where the shift drops high bits and the addition traps (`None`)
      on overflow. */
  function PackUnits(acc: nat, units: seq<int>): Option<nat>
    decreases |units|
  {
    if units == [] then Some(acc)
    else
      var sum := (acc * 256) % FourCharCodeLimit + units[0];
      if 0 <= sum < FourCharCodeLimit then PackUnits(sum, units[1..]) else None
  }

  /** Packs a four-character string into a `UInt32`; the assertion of the source
      demands exactly four characters. For 8-bit characters the result is the
      big-endian packing `c0·2^24 + c1·2^16 + c2·2^8 + c3`. */
  function FourCharCode(s: string): (r: Option<nat>)
    requires |s| == 4
    ensures r.Some? ==> r.value < FourCharCodeLimit
    ensures (forall i :: 0 <= i < 4 ==> s[i] < '\U{100}') ==>
              r == Some(s[0] as int * 0x100_0000 + s[1] as int * 0x1_0000 + s[2] as int * 0x100 + s[3] as int)
  {
    PackUnitsBounded(0, Utf16Units(s));
    PackNarrowFour(s);
    PackUnits(0, Utf16Units(s))
  }

  lemma PackNarrowFour(s: string)
    requires |s| == 4
    ensures (forall i :: 0 <= i < 4 ==> s[i] < '\U{100}') ==>
              PackUnits(0, Utf16Units(s)) == Some(s[0] as int * 0x100_0000 + s[1] as int * 0x1_0000 + s[2] as int * 0x100 + s[3] as int)
  {
    if forall i :: 0 <= i < 4 ==> s[i] < '\U{100}' {
      NarrowUnits(s);
      assert Utf16Units(s) == [s[0] as int, s[1] as int, s[2] as int, s[3] as int];
      PackFourBytes(s[0] as int, s[1] as int, s[2] as int, s[3] as int);
    }
  }

  lemma {:induction false} PackUnitsBounded(acc: nat, units: seq<int>)
    requires acc < FourCharCodeLimit
    ensures PackUnits(acc, units).Some? ==> PackUnits(acc, units).value < FourCharCodeLimit
    decreases |units|
  {
    if units != [] {
      var sum := (acc * 256) % FourCharCodeLimit + units[0];
      if 0 <= sum < FourCharCodeLimit {
        PackUnitsBounded(sum, units[1..]);
      }
    }
  }

  lemma {:induction false} NarrowUnits(s: string)
    requires forall i :: 0 <= i < |s| ==> s[i] < '\U{100}'
    ensures Utf16Units(s) == seq(|s|, i requires 0 <= i < |s| => s[i] as int)
  {
    if s != [] {
      NarrowUnits(s[1..]);
    }
  }

  lemma PackFourBytes(a: int, b: int, c: int, d: int)
    requires 0 <= a < 256 && 0 <= b < 256 && 0 <= c < 256 && 0 <= d < 256
    ensures PackUnits(0, [a, b, c, d]) == Some(a * 0x100_0000 + b * 0x1_0000 + c * 0x100 + d)
  {
    assert [a, b, c, d][1..] == [b, c, d];
    assert [b, c, d][1..] == [c, d];
    assert [c, d][1..] == [d];
    var ab, abc := a * 256 + b, a * 0x1_0000 + b * 256 + c;
    assert (a * 256) % FourCharCodeLimit == a * 256;
    assert (ab * 256) % FourCharCodeLimit == ab * 256;
    assert (abc * 256) % FourCharCodeLimit == abc * 256;
    assert PackUnits(0, [a, b, c, d]) == PackUnits(a, [b, c, d]);
    assert PackUnits(a, [b, c, d]) == PackUnits(ab, [c, d]);
    assert PackUnits(ab, [c, d]) == PackUnits(abc, [d]);
    assert PackUnits(abc, [d]) == PackUnits(abc * 256 + d, []);
  }

  /** Unpacking: the four bytes of the code of an 8-bit string are its characters. */
  lemma FourCharCodeBytes(s: string)
    requires |s| == 4 && forall i :: 0 <= i < 4 ==> s[i] < '\U{100}'
    ensures var code := FourCharCode(s).value;
      && code / 0x100_0000 == s[0] as int
      && (code / 0x1_0000) % 0x100 == s[1] as int
      && (code / 0x100) % 0x100 == s[2] as int
      && code % 0x100 == s[3] as int
  {
    var a, b, c, d := s[0] as int, s[1] as int, s[2] as int, s[3] as int;
    var code := FourCharCode(s).value;
    assert code == ((a * 0x100 + b) * 0x100 + c) * 0x100 + d;
    DivModByte((a * 0x100 + b) * 0x100 + c, d);
    DivModByte(a * 0x100 + b, c);
    DivModByte(a, b);
  }

  /** `(q·256 + r) / 256 == q` and `(q·256 + r) % 256 == r` for a byte `r`. */
  lemma DivModByte(q: int, r: int)
    requires q >= 0 && 0 <= r < 256
    ensures (q * 256 + r) / 256 == q && (q * 256 + r) % 256 == r
  {
  }

  // ------------------------------------------------------------ trim / isBlank

  /** Number of leading whitespace characters. */
  function LeadingWhitespace(s: string): (n: nat)
    ensures n <= |s|
    ensures forall i :: 0 <= i < n ==> IsWhitespace(s[i])
    ensures n < |s| ==> !IsWhitespace(s[n])
  {
    if s == [] || !IsWhitespace(s[0]) then 0 else 1 + LeadingWhitespace(s[1..])
  }

  /** Number of trailing whitespace characters. */
  function TrailingWhitespace(s: string): (n: nat)
    ensures n <= |s|
    ensures forall i :: |s| - n <= i < |s| ==> IsWhitespace(s[i])
    ensures n < |s| ==> !IsWhitespace(s[|s| - n - 1])
  {
    if s == [] || !IsWhitespace(s[|s| - 1]) then 0 else 1 + TrailingWhitespace(s[..|s| - 1])
  }

  /** `trim()`: `s` without its leading and trailing whitespace. */
  function Trim(s: string): (r: string)
    ensures |r| <= |s|
    ensures LeadingWhitespace(s) + |r| <= |s| && r == s[LeadingWhitespace(s)..LeadingWhitespace(s) + |r|]
    ensures forall i :: 0 <= i < LeadingWhitespace(s) ==> IsWhitespace(s[i])
    ensures forall i :: LeadingWhitespace(s) + |r| <= i < |s| ==> IsWhitespace(s[i])
    ensures r != [] ==> !IsWhitespace(r[0]) && !IsWhitespace(r[|r| - 1])
  {
    var rest := s[LeadingWhitespace(s)..];
    rest[..|rest| - TrailingWhitespace(rest)]
  }

  /** Trimming twice is trimming once. */
  lemma TrimIdempotent(s: string)
    ensures Trim(Trim(s)) == Trim(s)
  {
    var r := Trim(s);
    if r != [] {
      assert LeadingWhitespace(r) == 0;
      assert TrailingWhitespace(r) == 0;
      assert r[0..][..|r|] == r;
    }
  }

  /** `isBlank`: `nil` or nothing but whitespace. */
  function IsBlank(val: Option<string>): (b: bool)
    ensures b <==> (val.None? || forall i :: 0 <= i < |val.value| ==> IsWhitespace(val.value[i]))
  {
    match val
    case None => true
    case Some(s) =>
      BlankIffTrimEmpty(s);
      Trim(s) == []
  }

  lemma BlankIffTrimEmpty(s: string)
    ensures Trim(s) == [] <==> forall i :: 0 <= i < |s| ==> IsWhitespace(s[i])
  {
    if Trim(s) == [] {
      forall i | 0 <= i < |s|
        ensures IsWhitespace(s[i])
      {
        if i >= LeadingWhitespace(s) {
        }
      }
    } else {
      var k := LeadingWhitespace(s);
      assert s[k] == Trim(s)[0];
    }
  }

  // ------------------------------------------------------------ prefixes

  predicate HasPrefix(s: string, prefix: string) {
    |prefix| <= |s| && s[..|prefix|] == prefix
  }

  /** `removed(prefix:)`: drops the first `|prefix|` characters without checking
      that they match; offsetting past the end traps. */
  function RemovedPrefix(s: string, prefix: string): (r: string)
    requires |prefix| <= |s|
    ensures |r| == |s| - |prefix|
    ensures s == s[..|prefix|] + r
  {
    s[|prefix|..]
  }

  /** `removing(prefix:)`: `s` unchanged unless it starts with `prefix`, and then
      the rest after it. */
  function RemovingPrefix(s: string, prefix: string): (r: string)
    ensures !HasPrefix(s, prefix) ==> r == s
    ensures HasPrefix(s, prefix) ==> prefix + r == s
  {
    if !HasPrefix(s, prefix) then s
    else
      assert s == s[..|prefix|] + s[|prefix|..];
      s[|prefix|..]
  }

  /** On a string that does start with `prefix`, the checking and the unchecked
      removal agree. */
  lemma RemovedAgreesWithRemoving(s: string, prefix: string)
    requires HasPrefix(s, prefix)
    ensures RemovedPrefix(s, prefix) == RemovingPrefix(s, prefix)
  {
  }

  // ------------------------------------------------------------ search

  /** `sub` occurs in `s` at index `i`. */
  predicate Occurs(s: string, sub: string, i: int) {
    0 <= i && i + |sub| <= |s| && s[i..i + |sub|] == sub
  }

  /** `position(of:from:)`: the first index `>= from` at which `sub` occurs, or -1.
      Foundation finds no range for an empty needle, so that gives -1 as well.
      Offsetting the start past the end traps. */
  function PositionFrom(s: string, sub: string, from: int): (r: int)
    requires 0 <= from <= |s|
    ensures r == -1 || (from <= r && Occurs(s, sub, r))
    ensures r == -1 <==> (sub == [] || forall j :: from <= j ==> !Occurs(s, sub, j))
    ensures r != -1 ==> forall j :: from <= j < r ==> !Occurs(s, sub, j)
    decreases |s| - from
  {
    if sub == [] || from + |sub| > |s| then -1
    else if s[from..from + |sub|] == sub then from
    else PositionFrom(s, sub, from + 1)
  }

  /** `position(of:)`: the index of the first occurrence of `sub`, or -1. */
  function Position(s: string, sub: string): (r: int)
    ensures r == -1 <==> (sub == [] || forall j :: !Occurs(s, sub, j))
    ensures r != -1 ==> Occurs(s, sub, r) && forall j :: j < r ==> !Occurs(s, sub, j)
  {
    PositionFrom(s, sub, 0)
  }

  /** `substring(from:length:)`: the `length` characters starting at `from`;
      offsets outside the string trap. */
  function Substring(s: string, from: int, length: int): (r: string)
    requires 0 <= from && 0 <= length && from + length <= |s|
    ensures |r| == length
    ensures forall i :: 0 <= i < length ==> r[i] == s[from + i]
  {
    s[from..from + length]
  }

  /** `removing(suffix:)`: `s` when `suffix` does not occur; otherwise the text
      before its FIRST occurrence, which need not be at the end. */
  function RemovingSuffix(s: string, suffix: string): (r: string)
    ensures Position(s, suffix) == -1 ==> r == s
    ensures Position(s, suffix) != -1 ==> HasPrefix(s, r + suffix) && Position(r, suffix) == -1
    ensures Position(s, suffix) != -1 ==> |r| == Position(s, suffix)
  {
    var position := Position(s, suffix);
    if position == -1 then s
    else
      var r := s[..position];
      assert (r + suffix) == s[..position + |suffix|];
      forall j | Occurs(r, suffix, j)
        ensures false
      {
        assert s[j..j + |suffix|] == r[j..j + |suffix|];
        assert Occurs(s, suffix, j);
      }
      r
  }

  /** Removing the same suffix twice removes nothing more: the first result no longer contains it. */
  lemma RemovingSuffixIdempotent(s: string, suffix: string)
    ensures RemovingSuffix(RemovingSuffix(s, suffix), suffix) == RemovingSuffix(s, suffix)
  {
  }

  /** When `suffix` occurs exactly once, at the end, `removing(suffix:)` strips it. */
  lemma RemovingTrueSuffix(s: string, suffix: string)
    requires suffix != [] && |suffix| <= |s| && s[|s| - |suffix|..] == suffix
    requires forall j :: Occurs(s, suffix, j) ==> j == |s| - |suffix|
    ensures RemovingSuffix(s, suffix) + suffix == s
  {
    assert Occurs(s, suffix, |s| - |suffix|);
  }

  /** The last element of the greedy chain of matches that `lastPosition`
      follows: from the match at `i`, the next match is searched from `i + |sub|`
      while that is still inside the string. -1 stands for no match. */
  function ChainLast(s: string, sub: string, i: int): int
    requires i == -1 || Occurs(s, sub, i)
    decreases if i < 0 then 0 else |s| + 1 - i
  {
    if i == -1 then -1
    else if i + |sub| < |s| then
      var next := PositionFrom(s, sub, i + |sub|);
      if next == -1 then i else ChainLast(s, sub, next)
    else i
  }

  /** `lastPosition(of:)`: repeatedly searches again from just past each match,
      so consecutive matches never overlap. The result is the end of that chain
      of matches, starting from the first one. It is -1 exactly when there is no
      occurrence; otherwise it is an occurrence no earlier than the first one,
      and no occurrence starts at or after its end. */
  method LastPosition(s: string, sub: string) returns (index: int)
    ensures index == -1 <==> Position(s, sub) == -1
    ensures index != -1 ==> Occurs(s, sub, index) && Position(s, sub) <= index
    ensures index != -1 ==> forall j :: index + |sub| <= j ==> !Occurs(s, sub, j)
    ensures index == ChainLast(s, sub, Position(s, sub))
  {
    index := -1;
    var stepIndex := Position(s, sub);
    while stepIndex > -1
      invariant stepIndex >= -1
      invariant stepIndex != -1 ==> sub != [] && Occurs(s, sub, stepIndex) && Position(s, sub) <= stepIndex
      invariant index == -1 ==> stepIndex == Position(s, sub)
      invariant index != -1 ==> Occurs(s, sub, index) && Position(s, sub) <= index
      invariant index != -1 && stepIndex == -1 ==> forall j :: index + |sub| <= j ==> !Occurs(s, sub, j)
      invariant (if stepIndex == -1 then index else ChainLast(s, sub, stepIndex)) == ChainLast(s, sub, Position(s, sub))
      decreases if stepIndex < 0 then 0 else |s| + 1 - stepIndex
    {
      index := stepIndex;
      if stepIndex + |sub| < |s| {
        stepIndex := PositionFrom(s, sub, stepIndex + |sub|);
      } else {
        stepIndex := -1;
      }
    }
  }

  /** The last index at or below `k` at which `sub` occurs, or -1; an empty
      needle gives -1, as for `position(of:)`. */
  function LastOccurrenceAtOrBelow(s: string, sub: string, k: int): (r: int)
    requires k <= |s|
    ensures r == -1 || (r <= k && Occurs(s, sub, r))
    ensures r == -1 <==> (sub == [] || forall j :: j <= k ==> !Occurs(s, sub, j))
    ensures r != -1 ==> forall j :: r < j <= k ==> !Occurs(s, sub, j)
    decreases k + 1
  {
    if k < 0 || sub == [] then -1
    else if Occurs(s, sub, k) then k
    else LastOccurrenceAtOrBelow(s, sub, k - 1)
  }

  /** The corrected `lastPosition(of:)`: the last occurrence of `sub`, or -1
      exactly when `position(of:)` is -1. */
  function LastOccurrence(s: string, sub: string): (r: int)
    ensures r == -1 <==> Position(s, sub) == -1
    ensures r != -1 ==> Occurs(s, sub, r) && Position(s, sub) <= r
    ensures r != -1 ==> forall j :: r < j ==> !Occurs(s, sub, j)
  {
    LastOccurrenceAtOrBelow(s, sub, |s|)
  }

  /** The end of a chain is a match from which no later match starts at or
      after its end. */
  lemma {:induction false} ChainLastEnds(s: string, sub: string, i: int)
    requires sub != [] && Occurs(s, sub, i)
    ensures Occurs(s, sub, ChainLast(s, sub, i)) && i <= ChainLast(s, sub, i)
    ensures forall j :: ChainLast(s, sub, i) + |sub| <= j ==> !Occurs(s, sub, j)
    decreases |s| + 1 - i
  {
    if i + |sub| < |s| {
      var next := PositionFrom(s, sub, i + |sub|);
      if next != -1 {
        ChainLastEnds(s, sub, next);
      }
    }
  }

  /** For a needle whose occurrences in `s` never overlap, `lastPosition(of:)`
      as written does return the last occurrence. */
  lemma LastPositionAgreesWithoutOverlap(s: string, sub: string)
    requires forall i, j :: Occurs(s, sub, i) && Occurs(s, sub, j) && i < j ==> i + |sub| <= j
    ensures ChainLast(s, sub, Position(s, sub)) == LastOccurrence(s, sub)
  {
    var first := Position(s, sub);
    if first != -1 {
      ChainLastEnds(s, sub, first);
    }
  }

  /** As written, "aa" in "aaa" gives the chain 0 only: the search resumes at 2,
      where "aa" no longer fits, although "aa" also occurs at 1. The corrected
      function gives 1. */
  lemma LastPositionOverlapCounterexample()
    ensures Position("aaa", "aa") == 0
    ensures ChainLast("aaa", "aa", Position("aaa", "aa")) == 0
    ensures Occurs("aaa", "aa", 1)
    ensures LastOccurrence("aaa", "aa") == 1
  {
    assert "aaa"[0..2] == "aa";
    assert "aaa"[1..3] == "aa";
    assert Occurs("aaa", "aa", 0);
    assert PositionFrom("aaa", "aa", 2) == -1;
    assert LastOccurrenceAtOrBelow("aaa", "aa", 3) == LastOccurrenceAtOrBelow("aaa", "aa", 2);
  }

  // ------------------------------------------------------------ pluralized

  const Vowels: string := "aeiou"
  const Consonants: string := "bcdfghjklmnpqrstvwxz"

  /** Pluralisation happens only for language "en" (the default when the locale
      has no language code) and a count other than 1. */
  predicate Pluralizes(count: int, languageCode: Option<string>) {
    languageCode.GetOr("en") == "en" && count != 1
  }

  datatype PluralRule = DropYAddIes | AddEs | AddS

  /** The rule chosen from the last two characters. The last one is lowercased
      before comparing; the second to last is compared as it is against the
      lowercase vowel and consonant lists. */
  function PluralRuleFor(last: char, secondToLast: char): PluralRule {
    if ToLowerChar(last) == 'y' && secondToLast !in Vowels then DropYAddIes
    else if ToLowerChar(last) == 's' || (ToLowerChar(last) == 'o' && secondToLast in Consonants) then AddEs
    else AddS
  }

  function SuffixOf(rule: PluralRule): string {
    match rule
    case DropYAddIes => "ies"
    case AddEs => "es"
    case AddS => "s"
  }

  /** The suffix in upper case unless the last character has a distinct uppercase form. */
  function CasedSuffix(rule: PluralRule, last: char): string {
    if last != ToUpperChar(last) then SuffixOf(rule) else ToUpper(SuffixOf(rule))
  }

  /** Applies `rule` to a word of at least two characters. */
  function Inflect(s: string, rule: PluralRule): string
    requires |s| >= 2
  {
    (if rule == DropYAddIes then s[..|s| - 1] else s) + CasedSuffix(rule, s[|s| - 1])
  }

  /** `pluralized(by:with:)`. Reading the last two characters traps on a word
      shorter than two characters when it has to be pluralised. */
  function Pluralized(s: string, count: int, languageCode: Option<string>): (r: string)
    requires Pluralizes(count, languageCode) ==> |s| >= 2
    ensures !Pluralizes(count, languageCode) ==> r == s
    ensures Pluralizes(count, languageCode) ==>
      var last, second := s[|s| - 1], s[|s| - 2];
      && (ToLowerChar(last) == 'y' && second !in Vowels ==>
            r == s[..|s| - 1] + CasedSuffix(DropYAddIes, last))
      && (!(ToLowerChar(last) == 'y' && second !in Vowels)
          && (ToLowerChar(last) == 's' || (ToLowerChar(last) == 'o' && second in Consonants)) ==>
            r == s + CasedSuffix(AddEs, last))
      && (!(ToLowerChar(last) == 'y' && second !in Vowels)
          && !(ToLowerChar(last) == 's' || (ToLowerChar(last) == 'o' && second in Consonants)) ==>
            r == s + CasedSuffix(AddS, last))
  {
    if !Pluralizes(count, languageCode) then s
    else Inflect(s, PluralRuleFor(s[|s| - 1], s[|s| - 2]))
  }

  /** Every pluralised word keeps all but its last character, grows, and ends in 's' or 'S'. */
  lemma PluralizedShape(s: string, count: int, languageCode: Option<string>)
    requires Pluralizes(count, languageCode) && |s| >= 2
    ensures var r := Pluralized(s, count, languageCode);
      && |r| > |s|
      && r[..|s| - 1] == s[..|s| - 1]
      && (r[|r| - 1] == 's' || r[|r| - 1] == 'S')
  {
    var rule := PluralRuleFor(s[|s| - 1], s[|s| - 2]);
    var suffix := CasedSuffix(rule, s[|s| - 1]);
    assert suffix[|suffix| - 1] == 's' || suffix[|suffix| - 1] == 'S';
  }

  /** The same rules with the second to last character lowercased as well. */
  function PluralRuleForIgnoringCase(last: char, secondToLast: char): PluralRule {
    PluralRuleFor(last, ToLowerChar(secondToLast))
  }

  /** `pluralized(by:with:)` with the second to last character compared without
      regard to case, so that "BOY" becomes "BOYS" like "boy" becomes "boys". */
  function PluralizedIgnoringCase(s: string, count: int, languageCode: Option<string>): (r: string)
    requires Pluralizes(count, languageCode) ==> |s| >= 2
    ensures !Pluralizes(count, languageCode) ==> r == s
    ensures Pluralizes(count, languageCode) ==> |r| > |s| && r[..|s| - 1] == s[..|s| - 1]
  {
    if !Pluralizes(count, languageCode) then s
    else Inflect(s, PluralRuleForIgnoringCase(s[|s| - 1], s[|s| - 2]))
  }

  lemma LowerOfUpper(c: char)
    ensures ToLowerChar(ToUpperChar(c)) == ToLowerChar(c)
    ensures ToUpperChar(ToUpperChar(c)) == ToUpperChar(c)
  {
  }

  /** The case-insensitive variant commutes with uppercasing: pluralising the
      uppercased word gives the uppercased plural. */
  lemma {:induction false} PluralizedIgnoringCaseCommutesWithUpper(s: string, count: int, languageCode: Option<string>)
    requires Pluralizes(count, languageCode) && |s| >= 2
    ensures PluralizedIgnoringCase(ToUpper(s), count, languageCode) == ToUpper(PluralizedIgnoringCase(s, count, languageCode))
  {
    var u := ToUpper(s);
    var last, second := s[|s| - 1], s[|s| - 2];
    LowerOfUpper(last);
    LowerOfUpper(second);
    var rule := PluralRuleForIgnoringCase(last, second);
    assert PluralRuleForIgnoringCase(u[|u| - 1], u[|u| - 2]) == rule;
    var suffix := SuffixOf(rule);
    assert CasedSuffix(rule, u[|u| - 1]) == ToUpper(suffix);
    assert ToUpper(CasedSuffix(rule, last)) == ToUpper(suffix) by {
      forall i | 0 <= i < |suffix| ensures ToUpperChar(ToUpper(suffix)[i]) == ToUpper(suffix)[i] {
        LowerOfUpper(suffix[i]);
      }
    }
    var stem := if rule == DropYAddIes then s[..|s| - 1] else s;
    var ustem := if rule == DropYAddIes then u[..|u| - 1] else u;
    assert ustem == ToUpper(stem);
    assert ToUpper(stem + CasedSuffix(rule, last)) == ToUpper(stem) + ToUpper(CasedSuffix(rule, last));
  }

  /** "BOY" is pluralised to "BOIES" although "boy" becomes "boys": the uppercase
      'O' is not found among the lowercase vowels. */
  lemma PluralizedUppercaseCounterexample()
    ensures Pluralized("boy", 2, None) == "boys"
    ensures Pluralized("BOY", 2, None) == "BOIES"
    ensures PluralizedIgnoringCase("BOY", 2, None) == "BOYS"
  {
    assert "boy"[2] == 'y' && "boy"[1] == 'o';
    assert "BOY"[2] == 'Y' && "BOY"[1] == 'O';
    assert 'O' !in Vowels;
    assert 'o' in Vowels;
    assert ToUpper("s") == "S";
    assert ToUpper("ies") == "IES";
    assert "BOY"[..2] == "BO";
  }
}

=== FILE: vectors.dfy ===
/** The `SCNVector3` helpers of SceneKit/SCNVector.swift: scaling, cloning and
    the `+`, `-` and `*` operators, over reals. The `CGFloat` overloads convert
    to `Float` first; over reals that conversion is the identity. */
module Vectors {

  datatype Vec3 = Vec3(x: real, y: real, z: real)

  const Zero: Vec3 := Vec3(0.0, 0.0, 0.0)

  /** `scale(by:)`: each component times the factor. */
  function Scale(v: Vec3, factor: real): Vec3 {
    Vec3(v.x * factor, v.y * factor, v.z * factor)
  }

  /** `scaled(by:)`: written separately in the source, with the same arithmetic. */
  function Scaled(v: Vec3, factor: real): Vec3 {
    Vec3(v.x * factor, v.y * factor, v.z * factor)
  }

  /** The `*` operators delegate to `scale(by:)`. */
  function Mul(v: Vec3, factor: real): Vec3 {
    Scale(v, factor)
  }

  /** `clone()`: a new vector from the components, which over reals is the vector itself. */
  function Clone(v: Vec3): Vec3 {
    Vec3(v.x, v.y, v.z)
  }

  /** `+`: componentwise sum. */
  function Add(a: Vec3, b: Vec3): Vec3 {
    Vec3(a.x + b.x, a.y + b.y, a.z + b.z)
  }

  /** `-`: componentwise difference. */
  function Sub(a: Vec3, b: Vec3): Vec3 {
    Vec3(a.x - b.x, a.y - b.y, a.z - b.z)
  }

  /** Subtracting what was added gives the original back; adding is commutative
      and the zero vector is neutral. */
  lemma SubUndoesAdd(a: Vec3, b: Vec3)
    ensures Sub(Add(a, b), b) == a
    ensures Add(a, b) == Add(b, a)
    ensures Add(a, Zero) == a && Sub(a, a) == Zero
  {
  }

  /** `scaled(by:)`, `scale(by:)` and `*` compute the same vector. */
  lemma ScaledIsScale(v: Vec3, factor: real)
    ensures Scaled(v, factor) == Scale(v, factor)
    ensures Mul(v, factor) == Scale(v, factor)
  {
  }

  /** Scaling by 1 changes nothing and scaling by 0 gives the zero vector. */
  lemma ScaleByOneAndZero(v: Vec3)
    ensures Scale(v, 1.0) == v
    ensures Scale(v, 0.0) == Zero
  {
  }

  /** Two scalings are one by the product, and scaling distributes over `+`. */
  lemma ScaleCompose(a: Vec3, b: Vec3, f: real, g: real)
    ensures Scale(Scale(a, f), g) == Scale(a, f * g)
    ensures Scale(Add(a, b), f) == Add(Scale(a, f), Scale(b, f))
  {
  }
}

=== FILE: wrappers.dfy ===
/** Failure-compatible wrapper shared by the modules of this model: the
    source's optionals (`T?`, implicitly unwrapped `T!`) become `Option<T>`. */
module Wrappers {

  /** A value that may be absent; `None` stands for Swift's `nil`. */
  datatype Option<+T> = None | Some(value: T) {

    /** Returns the wrapped value, or `default` when there is none (Swift's `??`). */
    function GetOr(default: T): T {
      match this
      case Some(v) => v
      case None => default
    }
  }
}
